=== FILE: README.md ===
# Secure-wipe tool: ledger, certificates and drive handling in Dafny

This project models the logic of a small Linux drive-wiping tool. The tool wipes a drive with
`nwipe`, then anchors the wipe's final hash in a local JSON ledger (`ledger.json`). It issues a
certificate: a JSON record, a PDF and an Ed25519 signature over the record's canonical JSON text.
Later, it checks a certificate or a transaction id against the ledger.

Each source file is a module:

- `Ledger` models `blockchain_connector.py`. The ledger file is a `Store`: `Missing`,
  `Corrupt`, or `Valid` with its id-to-record map. Anchoring returns the store it writes.
- `Verify` models `verify.py`. It covers the id check, the four-way certificate check with
  Python's `TypeError` for an unhashable id, the exact messages, and the command-line dispatch.
- `KeyStore` and `SignedReport` model `report_generatpr.py`. They cover the load-or-create key
  slot, the certificate record, the three artifact paths, and the signed canonical message.
- `Report` models `report_generator.py`: the unsigned report record and its file names.
- `DriveManager` models `drive_manager.py`. It covers how the boot drive is read from
  `findmnt` output and how `lsblk` rows are filtered.
- `WipeCli` models `back.py`: the method table, the `nwipe` command, and the menu loop driven by
  a list of typed answers.
- `WipeThread` models `wipe_manager.py`: the `nwipe` command line and the signal trace of
  `WipeThread.run`.

Four support modules carry the Python semantics the model is stated in:

- `Common`: `Option`, `Result` and `byte`.
- `PyStr`: the calls the code makes (`strip()` and `split()` with Python's whitespace set,
  `split("\n")`, `rstrip(digits)`, `replace`, `endswith`), plus `rpartition` and `split` on a
  multi-character separator, which the code does not call but which state the path-naming and
  `replace` properties.
- `JsonValue`: the values `json.load` returns for integer-only documents, Python truthiness,
  hashability, and `dict.get`.
- `CanonicalJson`: dicts as insertion-ordered member lists, `json.dumps(sort_keys=True)`, and
  `json.dump(indent=n)`.

Some inputs are parameters rather than computed:

- Clocks (the `%Y%m%d_%H%M%S` timestamp).
- Subprocess outputs and exit codes.
- The key that Ed25519 generation would produce.
- Foreign functions, passed as function-typed fields: Python's JSON string escaping,
  `str.encode`, PEM encoding and decoding, and Ed25519 signing.
- Python's `str()` of a JSON value, passed as `show`.

Three behaviours of the code are worth stating plainly:

- Anchoring a hash under an id that is already in the ledger overwrites the entry rather than
  rejecting it. Because the id is the hash itself, an entry written by anchoring already holds
  the record the overwrite writes, so re-anchoring changes nothing (`Ledger.AnchorIdempotent`).
  An entry under that id that records some other hash is replaced. Anchoring alone never
  writes such an entry (`Ledger.AnchoredLedgerSelfKeyed`).
- Checking a certificate has four outcomes: invalid format, verified, mismatch and not found.
  It can also raise `TypeError` when the id is a list or an object.
- There is no hash chain, sector sampling or wipe orchestrator anywhere in the code.
  `final_hash` is an opaque string parameter here.

## Model

| member | source | states |
|---|---|---|
| Ledger.GetLedger | blockchain_connector.py:37-47 | a valid file reads as its entries; a missing file, or one whose text `json.load` rejects with `JSONDecodeError`, reads as the empty ledger |
| Ledger.AnchorHash | blockchain_connector.py:8-35 | the returned id is the hash; the written file is valid; its keys are the loaded keys plus the hash; the hash maps to a record holding the hash; every other loaded entry is kept unchanged |
| Ledger.VerifyHash | blockchain_connector.py:49-54 | true exactly when the id is a key of the loaded ledger |
| Ledger.AnchorIdempotent | blockchain_connector.py:14-29 | anchoring the same hash a second time returns the same id and writes the same ledger as the first call |
| Ledger.AnchorResetsUnreadable | blockchain_connector.py:17-29 | from a missing or corrupt file, the ledger afterwards holds only the new entry |
| Ledger.AnchorThenVerifyHash | blockchain_connector.py:27-33 | after anchoring h, an id verifies iff it is h or it verified before |
| Ledger.AnchorEachSelfKeyed | blockchain_connector.py:14-29 | anchoring a sequence of hashes keeps every key equal to the hash in its record; the keys become the old keys plus the anchored hashes |
| Ledger.AnchoredLedgerSelfKeyed | blockchain_connector.py:14-29 | a ledger built only by anchoring, from an empty or unreadable file, has every key equal to its record's hash |
| JsonValue.Get | verify.py:24-25 | the stored value for a present key; `None`, which is falsy, for an absent one |
| JsonValue.Truthy | verify.py:27 | Python truthiness: false exactly for `None`, `False`, `0`, the empty string, the empty list and the empty dict |
| JsonValue.Hashable | verify.py:31 | lists and dicts cannot be looked up in a dict; every other value can |
| Verify.VerifyByTxid | verify.py:5-16 | succeeds iff the id is a ledger key, with no hash comparison; the success and failure messages are the source's |
| Verify.VerifyByJsonData | verify.py:18-37 | invalid format iff the id or hash is missing or falsy; an error iff a well-formed id is unhashable; verified iff the id is on the ledger with an equal hash; mismatch iff on the ledger with a different hash; not found iff hashable and absent; a verified answer carries the certificate's drive |
| Verify.Answer | verify.py:27-37 | success iff the verdict is verified; each verdict gets the source's message, with the drive shown in the verified one |
| Verify.VerdictIgnoresOtherFields | verify.py:24-37 | changing any field other than the id, hash and drive leaves the verdict unchanged |
| Verify.AcceptanceIgnoresDrive | verify.py:24-33 | whether a certificate verifies does not depend on its drive field |
| Verify.VerifiedCertificateTxidVerifies | verify.py:10-16 | a verified certificate's id is a string that the id check and `verify_hash` both accept |
| Verify.TxidCheckAgreesWithVerifyHash | verify.py:10-11 | the id check and `verify_hash` give the same answer for every id and ledger |
| Verify.AnchoredCertificateVerifies | verify.py:24-33 | after anchoring a non-empty h, the certificate issued with the returned id verifies against the written ledger and names its drive |
| Verify.EmptyHashNeverVerifies | verify.py:27-28 | the empty hash is accepted by `verify_hash` once anchored, but its certificate is rejected as malformed |
| Verify.Dispatch | verify.py:54-66 | fewer than two arguments give usage; an argument ending in `.json` is a certificate file; any other argument is an id |
| KeyStore.LoadPrivateKey | report_generatpr.py:15-33 | a successful load always leaves a key file; an existing file is left unchanged, loads iff it decodes, and then returns the key it decodes to; without a file the generated key is returned and its PEM encoding is the file left behind; with a round-tripping codec the file left behind decodes to the returned key |
| KeyStore.LoadTwiceSameKey | report_generatpr.py:15-33 | a second load returns the same key and leaves the same file as the first, whatever the second generator would give |
| SignedReport.CertificateRecord | report_generatpr.py:63-70 | the record has distinct names, exactly the six keys, each input under its key, and the fixed status; the members come in the literal's order, the order the indented file writes |
| SignedReport.PathsFor | report_generatpr.py:72-74 | the json, pdf and sig paths split at their last dot into the one stem `wipes/<drive>_<timestamp>` and their own extension, and are pairwise distinct |
| SignedReport.GenerateReportAndSign | report_generatpr.py:52-91 | fails iff the key file does not decode; the record, paths and indented JSON text are as built; the message is the record's sort-keys text; the signature is over exactly its encoding with the loaded key |
| SignedReport.SignedMessageIgnoresOrder | report_generatpr.py:85-86 | any dict with the record's contents, in any insertion order, serialises to the signed message |
| CanonicalJson.ToMap | report_generatpr.py:63-70 | the contents of a dict built member by member, a later member winning; `ToMapContents` states its keys and values |
| CanonicalJson.ToMapContents | report_generatpr.py:63-70 | a dict's mapping has its member names as keys and, names being distinct, each name maps to its value |
| CanonicalJson.BelowTransitive | report_generatpr.py:85 | the string order `sort_keys` uses is transitive |
| CanonicalJson.BelowTotal | report_generatpr.py:85 | any two different strings are ordered one way or the other |
| CanonicalJson.BelowIrreflexive | report_generatpr.py:85 | no string is below itself |
| CanonicalJson.Below | report_generatpr.py:85 | Python's `<` on `str`, the order `sort_keys` sorts by; `BelowIsFirstDifference` equates it with the first-difference order, and the three lemmas around it show it is a strict total order |
| CanonicalJson.BelowIsFirstDifference | report_generatpr.py:85 | `a` is below `b` iff `a` is a proper prefix of `b` or, at the first position where they differ, `a` has the smaller code point |
| CanonicalJson.InsertMembers | report_generatpr.py:85 | inserting a member adds exactly that member |
| CanonicalJson.InsertSorted | report_generatpr.py:85 | inserting a new name keeps the names strictly increasing |
| CanonicalJson.SortByName | report_generatpr.py:85 | the member order `sort_keys=True` writes; `SortByNameSortsAndPermutes` shows it is strictly increasing by name and a permutation, and `SortedUnique` that no other order is |
| CanonicalJson.SortByNameSortsAndPermutes | report_generatpr.py:85 | the sort-keys order is strictly increasing and a permutation of the members |
| CanonicalJson.SortedUnique | report_generatpr.py:85 | two sorted dicts with the same members are equal |
| CanonicalJson.SameMapSameMembers | report_generatpr.py:85 | two dicts with distinct names and the same mapping have the same members |
| CanonicalJson.DumpsSortedIgnoresOrder | report_generatpr.py:85 | two dicts with the same mapping have the same sort-keys text |
| CanonicalJson.Dumps | report_generatpr.py:85 | compact `json.dumps` with the default separators; `DumpLayouts` proves it is `{`, the member texts joined with `", "`, and `}`, and `{}` for an empty dict |
| CanonicalJson.DumpsSorted | report_generatpr.py:85 | `json.dumps(sort_keys=True)`; `DumpLayouts` proves it writes the members of a strictly name-sorted permutation, and `DumpsSortedIgnoresOrder` that it depends only on the mapping |
| CanonicalJson.DumpIndented | report_generatpr.py:77-78 | `json.dump(indent=n)`; `DumpLayouts` proves it writes `{}` for an empty dict and otherwise the members in insertion order, one per line after n spaces, joined with `,\n` |
| CanonicalJson.MembersAreJoined | report_generatpr.py:78-85 | writing the members is joining their texts with the separator, each after the indent |
| CanonicalJson.DumpLayouts | report_generatpr.py:78-85 | the compact text is the member texts joined with `, ` in braces; the indented text is `{}` when empty, else the indented member texts joined with `,\n` between `{\n` and `\n}`; the sort-keys text is the compact text of a strictly sorted permutation |
| Report.StatusText | report_generator.py:18 | the status is "success" iff the wipe succeeded and "failed" iff not |
| Report.ReportRecord | report_generator.py:14-19 | the record has exactly drive, method, timestamp and status; the first three are the inputs verbatim; the status follows the flag; the members come in the literal's order, the order the indented file writes |
| Report.GenerateReport | report_generator.py:8-31 | the JSON file holds the record indented by 4; the pdf and json names split at their last dot into `<drive>_<timestamp>` and their extension, and differ |
| DriveManager.GetBootDrive | drive_manager.py:4-13 | None iff the lookup failed; otherwise a prefix of the stripped output with every `/dev/` removed, the cut-off part all digits, and no trailing digit left |
| DriveManager.BootDriveOfPlainDisk | drive_manager.py:10-11 | for a disk name not ending in a digit, any of its partitions' device paths gives the disk name |
| DriveManager.SdaExample | drive_manager.py:10-11 | `/dev/sda1` gives `sda` |
| DriveManager.ListDrives | drive_manager.py:16-35 | a failed `lsblk` gives one `Error: ...` line; otherwise the kept lines are the listed lines after the header, in order |
| DriveManager.FilterRows | drive_manager.py:25-32 | the loop over the rows returns exactly `KeptLines` of them; its invariant is that the rows kept so far are `KeptLines` of the rows seen so far |
| DriveManager.DataLines | drive_manager.py:23 | the rows after the header of the stripped output split at `\n`; through `PyStr.SplitOn`, header and rows joined with `\n` give back the stripped output and no row holds a newline |
| DriveManager.KeptLines | drive_manager.py:25-32 | the rows whose first word exists and is not the boot drive; `KeptLinesSound` and `KeptLinesComplete` prove it keeps exactly the listed rows, each as often as it occurs, in input order |
| DriveManager.KeptLinesSound | drive_manager.py:23-32 | every kept line is a data line that is non-blank with a first word other than the boot drive, and the kept lines are a subsequence of the data lines |
| DriveManager.KeptLinesComplete | drive_manager.py:25-32 | every data line that is non-blank with a first word other than the boot drive is kept verbatim, and as many times as it occurs among the data lines |
| DriveManager.KeptLinesNotBlankNotBoot | drive_manager.py:26-31 | no kept line is blank and no kept line's first word is the boot drive |
| DriveManager.NoBootDriveKeepsAllNonBlank | drive_manager.py:12-13 | with no boot drive known, a data line is kept iff it is not blank |
| DriveManager.NvmeBootDriveKeepsSeparator | drive_manager.py:11 | for a disk name ending in a digit, a partition path gives the disk name followed by `p` |
| DriveManager.NvmeBootDiskStaysListed | drive_manager.py:11-32 | for a disk name ending in a digit, the boot disk's own `lsblk` row is still listed |
| DriveManager.DiskOfPartitionName | drive_manager.py:11 | the corrected name reduction recovers the disk from any partition name, under both naming schemes |
| DriveManager.BootDiskOfPartition | drive_manager.py:4-11 | the corrected boot-disk lookup recovers the disk from any of its partitions' device paths |
| DriveManager.CorrectedListingExcludesBootDisk | drive_manager.py:16-32 | with the corrected lookup, no kept row names the boot disk |
| WipeCli.WipeMethodsTable | back.py:5-11 | the table's keys are "1" to "5"; its values are zero, random, dodshort, dod and gutmann; distinct keys give distinct methods |
| WipeCli.MethodKeyInvertsTable | back.py:5-11 | a method name has a key iff the table maps that key to it, and a key's method leads back to the key |
| WipeCli.WipeCommand | back.py:20-26 | no command iff the key is not in the table; otherwise the `nwipe` command for the drive with the table's method |
| WipeCli.WipeCommandMethod | back.py:20-26 | a command that runs addresses the typed drive, and its method argument is a table value selected by the typed key |
| WipeCli.MenuChoice | back.py:43-55 | "1" lists drives, "2" wipes, "3" exits, and anything else is an invalid option |
| WipeCli.RunMenu | back.py:34-55 | the menu loop over the typed answers with `lsblk` and `nwipe` outcomes as parameters; its contract is stated by the six lemmas below |
| WipeCli.RunMenuShape | back.py:34-55 | a session has no more events than answers; it ends by exit only if "3" was typed; every `nwipe` run uses a table method |
| WipeCli.RunMenuCrashes | back.py:13-32 | a session ends by an uncaught error only through a failing `lsblk` on some choice "1" or an `nwipe` command line that could not be started, which is then the last event |
| WipeCli.MenuWipeCutOff | back.py:45-51 | answers that run out after choice "2", before the drive and the method key are both typed, end the session with no event and no `nwipe` run |
| WipeCli.MenuWipeAndExit | back.py:20-53 | choice "2" consumes a drive and a key; an unknown key is rejected; a known key runs `nwipe`, and the loop carries on whether it exited with 0 or not, but ends with the error when `nwipe` could not be started; choice "3" ends the session at once |
| WipeCli.RunMenuSimpleChoices | back.py:43-55 | with `lsblk` working, a run of choices other than "2" and "3" shows the table for each "1" and rejects the others, then the remaining answers drive the loop |
| WipeCli.ListingFailureEndsSession | back.py:13-18 | with `lsblk` failing, the first "1" ends the session with its error, after the invalid choices typed before it were rejected |
| WipeThread.Command | wipe_manager.py:23 | the command line has five arguments, with the method passed through unmapped |
| WipeThread.CommandTargets | wipe_manager.py:23 | the command line names exactly the drive and method it was built from, and every command line of that shape is the one built for its drive and method |
| WipeThread.CommandInjective | wipe_manager.py:23 | different drives or methods give different command lines |
| WipeThread.Run | wipe_manager.py:22-34 | one progress signal per output line carrying the stripped line, in order; after an exception, one `Error: ...` progress signal; last, `finished` with true exactly for exit code 0; nothing but progress before it |
| WipeThread.RunTrace | wipe_manager.py:28-34 | the trace's progress texts are the stripped lines then the error text, if any, and the trace holds exactly one `finished` |
| PyStr.IsSpace | drive_manager.py:9-26 | the characters Python's `str.isspace()` accepts, which the argument-less `strip()` and `split()` treat as whitespace; `Strip`, `Words` and their lemmas are stated in terms of it |
| PyStr.Strip | drive_manager.py:9 | the result is no longer than the input, empty iff the input is all whitespace, has no whitespace at either end, and is the input itself when it has no whitespace |
| PyStr.StripCutsBlanks | drive_manager.py:9 | the input is the result with an all-whitespace prefix and an all-whitespace suffix around it |
| PyStr.Words | drive_manager.py:26 | every word is non-empty and holds no whitespace; `WordsEmptyIffBlank` and `FirstWordLeads` relate the words to the line |
| PyStr.FirstWordLeads | drive_manager.py:26-29 | the first word is the longest whitespace-free prefix after the leading whitespace |
| PyStr.EndsWith | verify.py:62 | `str.endswith`; `EndsWithConcat` proves it holds exactly when the text is some text followed by the suffix |
| PyStr.EndsWithConcat | verify.py:62 | a text ends with a suffix iff it is some text followed by that suffix |
| PyStr.SplitOn | drive_manager.py:23 | there is at least one piece, no piece holds the separator, and joining the pieces with it gives back the input |
| PyStr.WordsEmptyIffBlank | drive_manager.py:26-28 | a line splits into no words iff it is all whitespace |
| PyStr.RStripDigits | drive_manager.py:11 | a prefix of the input, with only digits cut off and no trailing digit left |
| PyStr.RemoveAll | drive_manager.py:11 | never longer than the input, and unchanged when the pattern's first character does not occur; `RemoveAllDeletesCuts` pins it as the pieces between the leftmost non-overlapping occurrences, run together |
| PyStr.RemoveAllDeletesCuts | drive_manager.py:11 | for any pieces that join back to the text with the pattern, each cut at the leftmost occurrence and the last free of it, `replace(pat, "")` is those pieces concatenated |
| PyStr.RemoveAllAbsent | drive_manager.py:11 | the text is unchanged when the pattern does not occur in it as a substring |
| PyStr.SplitAt | drive_manager.py:11 | `str.split` with a multi-character separator: at least one piece; `SplitAtJoin`, `SplitAtLastFree` and `SplitAtCutsLeftmost` show the pieces join back, the last holds no separator and each other one ends at the leftmost occurrence, and `SplitAtUnique` shows these facts determine the pieces |
| PyStr.SplitAtLastFree | drive_manager.py:11 | the last piece of `s.split(pat)` holds no occurrence of `pat` |
| PyStr.SplitAtCutsLeftmost | drive_manager.py:11 | every piece but the last is followed by the leftmost occurrence of `pat` after its start |
| PyStr.SplitAtUnique | drive_manager.py:11 | any pieces that join back with `pat`, are cut at leftmost occurrences and end with a `pat`-free piece are exactly `s.split(pat)` |
| PyStr.Join | drive_manager.py:11-23 | `sep.join(parts)`: the parts in order with `sep` between neighbours; it is the inverse that `SplitOn`, `SplitAtJoin` and `SplitAtUnique` state `split` against, and `MembersAreJoined` states the JSON layouts with it |
| PyStr.SplitAtJoin | drive_manager.py:11 | joining the pieces of `s.split(pat)` with `pat` gives `s` |
| PyStr.RemoveAllJoinsPieces | drive_manager.py:11 | `s.replace(pat, "")` equals `"".join(s.split(pat))`: deleting the occurrences concatenates the pieces between them |
| PyStr.RPartition | report_generatpr.py:72-74 | `str.rpartition` without the separator: the tail never holds the separator, the text is head, separator and tail when the separator occurs, and `([], s)` otherwise |
| PyStr.RPartitionJoin | report_generatpr.py:72-74 | cutting at the last separator recovers the two halves it was joined from |

## Left out

- PDF rendering (`generate_pdf`, the reportlab calls in `generate_report`) is left out: it is
  foreign drawing code with no logic of its own.
- File I/O is abstracted. The `wipes` and `keys` directories are not created. The ledger file is
  a `Store`, so its `indent=2` text is not modelled. The certificate and report JSON files are
  modelled as their text; the PDF and signature files are not.
- Ledger files that decode to JSON of another shape (not an object of `{"hash": str}` records)
  are not modelled. Nor is an `OSError` on reading or writing.
- Ledger.GetLedger: a ledger file whose bytes are not valid text in the default encoding makes
  the read raise `UnicodeDecodeError`. That is not a `JSONDecodeError`, so `get_ledger`,
  `anchor_hash` and the checks built on them do not catch it. `Corrupt` stands only for text
  that does not parse as JSON; the crash on undecodable bytes is not modelled.
- `CanonicalJson.Dumps` and `CanonicalJson.DumpIndented` take Python's string escaping as a
  parameter, so no escaping rule is modelled. Only strings are modelled as values, because the callers pass only strings; `json.dumps` itself takes any value.
- Subprocesses (`findmnt`, `lsblk`, `nwipe`) are not run. Their outputs, exit codes and exception
  texts are parameters. In `back.py`, `list_drives` prints `lsblk`'s table, and an exception from
  `check_output` is not caught, so it ends `main()` (the `Crashed` stop). The `subprocess.run` in
  `wipe_drive` catches only `CalledProcessError`, so a non-zero exit is reported and the loop
  goes on, while a launch failure such as `FileNotFoundError` ends `main()` too.
- WipeCli.RunMenu: every `lsblk` call in one session is assumed to come out the same way, and
  each `nwipe` run's outcome is assumed to depend only on its command line. Repeated calls that
  behave differently are not modelled.
- Printing, the `input()` prompts, and `verify_by_json_file` are left out. A file that does not
  parse is reported by a print only. Menu answers are a list; running out of answers stands for
  `EOFError`.
- Qt threading and signal delivery are modelled as an ordered list of emitted signals.
  Concurrent access to the ledger or key file is not modelled.
- The GUI files (`gui.py`, `main.py`, `certificate_viewer.py`) and `wipe.py` are not part of this
  model. `wipe.py` is file overwriting, deletion and Fernet encryption.
- The `WIPE_METHODS` table in `wipe_manager.py` is never used there. `WipeThread.Command`
  receives the method name unmapped, as the source does.
- KeyStore.LoadPrivateKey: assumes nothing about PEM beyond the codec parameter. That a newly
  written key file decodes back to the key is stated only under `RoundTrips(codec)`.
- Verify.AsCertificate: reading a certificate file back (`json.load` of the text `json.dump`
  wrote) is assumed to give the record's strings. No JSON parser is modelled.
- JsonValue: non-integer numbers (floats, `NaN`, `Infinity`), which `json.load` can return, are
  not modelled. A certificate whose id or hash is such a number is outside the model.
- Verify.VerifyByJsonData: the drive is shown in the message through the `show` parameter, not
  by a model of Python's `str()`.

## Findings

| source | as written | input that shows it | evidently intended | confidence | as-written member | corrected member |
|---|---|---|---|---|---|---|
| drive_manager.py:11 | the boot drive is the root device with `/dev/` removed and trailing digits stripped, so for NVMe and MMC disks the partition separator `p` stays | `findmnt` reports `/dev/nvme0n1p2`; the boot drive becomes `nvme0n1p`, and the `lsblk` row `nvme0n1 ...` is still offered for wiping | the boot disk is `nvme0n1` and its row is excluded | high that the name is wrong for `p`-separated partition names; not executed | DriveManager.NvmeBootDiskStaysListed | DriveManager.BootDiskOfPartition |

`DriveManager.NvmeBootDriveKeepsSeparator` shows the wrong name for every disk whose name ends in
a digit. `DriveManager.NvmeBootDiskStaysListed` shows that such a disk's row survives the filter.
The corrected `DriveManager.BootDisk` also drops a `p` that digit-stripping leaves right after a
digit. `DriveManager.BootDiskOfPartition` proves it recovers the disk for both naming schemes, and
`DriveManager.CorrectedListingExcludesBootDisk` proves the boot disk's row is then never offered.
`DriveManager.ListDrives` itself stays as written.

=== FILE: canonical_json.dfy ===
/** Python's `json.dumps` / `json.dump` for a dict whose values are strings:
    the compact form with `sort_keys=True` (the text that gets signed) and the
    `indent=4` file layout (insertion order). Escaping of string contents is
    Python's business and enters as the parameter `escape`. */
module CanonicalJson {
  import PyStr

  /** One `name: value` member of a dict. */
  datatype Field = Field(name: string, value: string)

  /** A Python dict with string values, in insertion order. */
  type Dict = seq<Field>

  /** The member names in insertion order, the order `indent=n` writes them. */
  function Names(d: Dict): (names: seq<string>)
    ensures |names| == |d|
  {
    seq(|d|, i requires 0 <= i < |d| => d[i].name)
  }

  predicate DistinctNames(d: Dict) {
    forall i, j :: 0 <= i < j < |d| ==> d[i].name != d[j].name
  }

  /** The dict as a mapping, forgetting insertion order (a later member wins, as
      a repeated assignment does in Python). */
  function ToMap(d: Dict): map<string, string>
    decreases |d|
  {
    if d == [] then map[] else ToMap(d[..|d| - 1])[d[|d| - 1].name := d[|d| - 1].value]
  }

  /** The mapping's keys are the dict's names and, names being distinct, each
      member's name maps to that member's value. */
  lemma ToMapContents(d: Dict)
    ensures ToMap(d).Keys == set f | f in d :: f.name
    ensures DistinctNames(d) ==> forall i :: 0 <= i < |d| ==> ToMap(d)[d[i].name] == d[i].value
  {
    ToMapKeys(d);
    if DistinctNames(d) {
      ToMapValues(d);
    }
  }

  lemma {:induction false} ToMapKeys(d: Dict)
    ensures ToMap(d).Keys == set f | f in d :: f.name
    decreases |d|
  {
    if d != [] {
      var init := d[..|d| - 1];
      var last := d[|d| - 1];
      ToMapKeys(init);
      assert d == init + [last];
      assert (set f | f in d :: f.name) == (set f | f in init :: f.name) + {last.name};
    }
  }

  lemma {:induction false} ToMapValues(d: Dict)
    requires DistinctNames(d)
    ensures forall i :: 0 <= i < |d| ==> d[i].name in ToMap(d) && ToMap(d)[d[i].name] == d[i].value
    decreases |d|
  {
    if d != [] {
      var init := d[..|d| - 1];
      var last := d[|d| - 1];
      assert DistinctNames(init) by {
        forall i, j | 0 <= i < j < |init| ensures init[i].name != init[j].name {
          assert init[i] == d[i] && init[j] == d[j];
        }
      }
      ToMapValues(init);
      forall i | 0 <= i < |d|
        ensures d[i].name in ToMap(d) && ToMap(d)[d[i].name] == d[i].value
      {
        if i < |d| - 1 {
          assert d[i] == init[i];
          assert d[i].name != last.name;
        }
      }
    }
  }

  /** Python's `a < b` on `str`: code-point order, a proper prefix first. */
  predicate Below(a: string, b: string)
    decreases |a|
  {
    if a == [] then b != []
    else b != [] && (a[0] < b[0] || (a[0] == b[0] && Below(a[1..], b[1..])))
  }

  lemma {:induction false} BelowIrreflexive(a: string)
    ensures !Below(a, a)
    decreases |a|
  {
    if a != [] {
      BelowIrreflexive(a[1..]);
    }
  }

  lemma {:induction false} BelowTransitive(a: string, b: string, c: string)
    requires Below(a, b) && Below(b, c)
    ensures Below(a, c)
    decreases |a|
  {
    if a != [] && a[0] == b[0] && b[0] == c[0] {
      BelowTransitive(a[1..], b[1..], c[1..]);
    }
  }

  /** Two different strings are always ordered one way or the other. */
  lemma {:induction false} BelowTotal(a: string, b: string)
    requires a != b
    ensures Below(a, b) || Below(b, a)
    decreases |a|
  {
    if a != [] && b != [] && a[0] == b[0] {
      assert a == [a[0]] + a[1..] && b == [b[0]] + b[1..];
      BelowTotal(a[1..], b[1..]);
    }
  }

  /** The textbook reading of `a < b` on `str`: `a` is a proper prefix of
      `b`, or at the first position where the two differ `a` has the smaller
      code point. */
  predicate FirstDifferenceBelow(a: string, b: string) {
    || (|a| < |b| && a == b[..|a|])
    || exists k :: 0 <= k < |a| && k < |b| && a[..k] == b[..k] && a[k] < b[k]
  }

  /** `Below` is exactly the first-difference order. */
  lemma {:induction false} BelowIsFirstDifference(a: string, b: string)
    ensures Below(a, b) <==> FirstDifferenceBelow(a, b)
    decreases |a|
  {
    if a != [] && b != [] {
      if a[0] < b[0] {
        assert a[..0] == b[..0];
      } else if a[0] > b[0] {
        forall k | 0 < k <= |a| && k <= |b| ensures a[..k] != b[..k] {
          assert a[..k][0] == a[0] && b[..k][0] == b[0];
        }
      } else {
        BelowIsFirstDifference(a[1..], b[1..]);
        FirstDifferenceShift(a, b);
      }
    }
  }

  /** Equal first characters leave the first-difference order to the rest. */
  lemma FirstDifferenceShift(a: string, b: string)
    requires a != [] && b != [] && a[0] == b[0]
    ensures FirstDifferenceBelow(a, b) <==> FirstDifferenceBelow(a[1..], b[1..])
  {
    var a', b' := a[1..], b[1..];
    if |a| < |b| {
      assert b[..|a|] == [b[0]] + b'[..|a'|];
      assert a == [a[0]] + a';
    }
    if k :| 0 <= k < |a| && k < |b| && a[..k] == b[..k] && a[k] < b[k] {
      assert k > 0;
      assert a'[..k - 1] == a[1..k] && b'[..k - 1] == b[1..k];
      assert a'[k - 1] < b'[k - 1];
    }
    if k :| 0 <= k < |a'| && k < |b'| && a'[..k] == b'[..k] && a'[k] < b'[k] {
      assert a[..k + 1] == [a[0]] + a'[..k] && b[..k + 1] == [b[0]] + b'[..k];
      assert a[k + 1] < b[k + 1];
    }
  }

  lemma BelowAsymmetric(a: string, b: string)
    requires Below(a, b)
    ensures !Below(b, a)
  {
    if Below(b, a) {
      BelowTransitive(a, b, a);
      BelowIrreflexive(a);
    }
  }

  /** Strictly increasing names, the order `sort_keys=True` produces. */
  predicate SortedByName(d: Dict) {
    forall i, j :: 0 <= i < j < |d| ==> Below(d[i].name, d[j].name)
  }

  /** Inserting one member into a sorted dict in front of the first larger name. */
  function Insert(f: Field, d: Dict): Dict
    decreases |d|
  {
    if d == [] then [f]
    else if Below(f.name, d[0].name) then [f] + d
    else [d[0]] + Insert(f, d[1..])
  }

  /** Insertion adds exactly the one member. */
  lemma {:induction false} InsertMembers(f: Field, d: Dict)
    ensures multiset(Insert(f, d)) == multiset(d) + multiset{f}
    decreases |d|
  {
    if d != [] && !Below(f.name, d[0].name) {
      InsertMembers(f, d[1..]);
      assert d == [d[0]] + d[1..];
    }
  }

  /** Insertion of a new name keeps a dict sorted. */
  lemma {:induction false} InsertSorted(f: Field, d: Dict)
    requires SortedByName(d)
    requires forall i :: 0 <= i < |d| ==> d[i].name != f.name
    ensures SortedByName(Insert(f, d))
    decreases |d|
  {
    if d == [] {
    } else if Below(f.name, d[0].name) {
      forall j | 0 <= j < |d| ensures Below(f.name, d[j].name) {
        if j > 0 {
          BelowTransitive(f.name, d[0].name, d[j].name);
        }
      }
    } else {
      BelowTotal(f.name, d[0].name);
      InsertSorted(f, d[1..]);
      InsertMembers(f, d[1..]);
      var rest := Insert(f, d[1..]);
      forall k | 0 <= k < |rest| ensures Below(d[0].name, rest[k].name) {
        assert rest[k] in multiset(rest);
        if rest[k] != f {
          assert rest[k] in multiset(d[1..]);
          var j :| 0 <= j < |d[1..]| && d[1..][j] == rest[k];
          assert d[j + 1] == rest[k];
        }
      }
      var r := [d[0]] + rest;
      forall i, j | 0 <= i < j < |r| ensures Below(r[i].name, r[j].name) {
        if i > 0 {
          assert r[i] == rest[i - 1] && r[j] == rest[j - 1];
        }
      }
    }
  }

  /** The member order `sort_keys=True` writes: insertion sort by name. */
  function SortByName(d: Dict): Dict
    decreases |d|
  {
    if d == [] then [] else Insert(d[0], SortByName(d[1..]))
  }

  /** Sorting a dict (whose names are distinct, as a dict's are) permutes its
      members into strictly increasing name order. */
  lemma {:induction false} SortByNameSortsAndPermutes(d: Dict)
    requires DistinctNames(d)
    ensures SortedByName(SortByName(d))
    ensures multiset(SortByName(d)) == multiset(d)
    decreases |d|
  {
    if d != [] {
      var rest := SortByName(d[1..]);
      SortByNameSortsAndPermutes(d[1..]);
      forall i | 0 <= i < |rest| ensures rest[i].name != d[0].name {
        assert rest[i] in multiset(d[1..]);
        var j :| 0 <= j < |d[1..]| && d[1..][j] == rest[i];
        assert d[j + 1] == rest[i];
      }
      InsertSorted(d[0], rest);
      InsertMembers(d[0], rest);
      assert d == [d[0]] + d[1..];
    }
  }

  /** Two sorted dicts with the same members are the same sequence: the sorted
      order leaves no freedom. */
  lemma {:induction false} SortedUnique(a: Dict, b: Dict)
    requires SortedByName(a) && SortedByName(b)
    requires forall x :: x in a <==> x in b
    ensures a == b
    decreases |a|
  {
    if a != [] {
      assert a[0] in a;
    }
    if b != [] {
      assert b[0] in b;
    }
    if a != [] && b != [] {
      assert a[0] in b;
      assert b[0] in a;
      if a[0] != b[0] {
        var j :| 0 <= j < |b| && b[j] == a[0];
        var i :| 0 <= i < |a| && a[i] == b[0];
        BelowAsymmetric(a[0].name, b[0].name);
        assert false;
      }
      forall x
        ensures x in a[1..] <==> x in b[1..]
      {
        if x in a[1..] {
          var i :| 0 <= i < |a[1..]| && a[1..][i] == x;
          assert a[i + 1] == x;
          BelowIrreflexive(x.name);
          assert x in a && x in b;
          var j :| 0 <= j < |b| && b[j] == x;
          assert j != 0;
          assert b[1..][j - 1] == x;
        }
        if x in b[1..] {
          var j :| 0 <= j < |b[1..]| && b[1..][j] == x;
          assert b[j + 1] == x;
          BelowIrreflexive(x.name);
          assert x in b && x in a;
          var i :| 0 <= i < |a| && a[i] == x;
          assert i != 0;
          assert a[1..][i - 1] == x;
        }
      }
      SortedUnique(a[1..], b[1..]);
      assert a == [a[0]] + a[1..] && b == [b[0]] + b[1..];
    }
  }

  /** With distinct names, equal mappings mean equal members. */
  lemma SameMapSameMembers(d1: Dict, d2: Dict)
    requires DistinctNames(d1) && DistinctNames(d2)
    requires ToMap(d1) == ToMap(d2)
    ensures forall x :: x in d1 <==> x in d2
  {
    ToMapContents(d1);
    ToMapContents(d2);
    forall x | x in d1 ensures x in d2 {
      var i :| 0 <= i < |d1| && d1[i] == x;
      assert x.name in ToMap(d2);
      var j :| 0 <= j < |d2| && d2[j].name == x.name;
      assert d2[j] == x;
    }
    forall x | x in d2 ensures x in d1 {
      var j :| 0 <= j < |d2| && d2[j] == x;
      assert x.name in ToMap(d1);
      var i :| 0 <= i < |d1| && d1[i].name == x.name;
      assert d1[i] == x;
    }
  }

  /** `json.dumps(s)` of a string: the escaped text between double quotes. */
  function Quote(s: string, escape: string -> string): string {
    "\"" + escape(s) + "\""
  }

  /** One member as `json.dumps` writes it: `"name": "value"`. */
  function MemberText(f: Field, escape: string -> string): string {
    Quote(f.name, escape) + ": " + Quote(f.value, escape)
  }

  /** The members written one after another, each preceded by `lead` and
      separated by `sep`. */
  function Members(d: Dict, escape: string -> string, sep: string, lead: string): string
    decreases |d|
  {
    if d == [] then ""
    else
      var member := lead + MemberText(d[0], escape);
      if |d| == 1 then member else member + sep + Members(d[1..], escape, sep, lead)
  }

  /** Each member's text after `lead`, in dict order. */
  function Items(d: Dict, escape: string -> string, lead: string): (items: seq<string>)
    ensures |items| == |d|
  {
    seq(|d|, i requires 0 <= i < |d| => lead + MemberText(d[i], escape))
  }

  /** Writing the members is `sep.join` of their texts, so the layouts differ
      only in separator and indent. */
  lemma {:induction false} MembersAreJoined(d: Dict, escape: string -> string, sep: string, lead: string)
    requires d != []
    ensures Members(d, escape, sep, lead) == PyStr.Join(Items(d, escape, lead), sep)
    decreases |d|
  {
    var items := Items(d, escape, lead);
    if |d| > 1 {
      MembersAreJoined(d[1..], escape, sep, lead);
      assert items[1..] == Items(d[1..], escape, lead);
    }
  }

  /** `json.dumps(d)` with the default separators `", "` and `": "`. */
  function Dumps(d: Dict, escape: string -> string): string {
    "{" + Members(d, escape, ", ", "") + "}"
  }

  /** `json.dumps(d, sort_keys=True)`: the canonical text. */
  function DumpsSorted(d: Dict, escape: string -> string): string
    requires DistinctNames(d)
  {
    Dumps(SortByName(d), escape)
  }

  /** `json.dump(d, f, indent=n)`: one member per line, in insertion order. */
  function DumpIndented(d: Dict, escape: string -> string, n: nat): string {
    if d == [] then "{}"
    else "{\n" + Members(d, escape, ",\n", seq(n, _ => ' ')) + "\n}"
  }

  /** The three layouts in terms of the member texts: `json.dumps` joins them
      with `", "` between braces (for `sort_keys=True`, in the strictly
      increasing name order of a permutation of the members); `indent=n`
      puts each on its own line after `n` spaces, joined with `",\n"`, and
      writes an empty dict as `{}`. */
  lemma DumpLayouts(d: Dict, escape: string -> string, n: nat)
    ensures d != [] ==> Dumps(d, escape) == "{" + PyStr.Join(Items(d, escape, ""), ", ") + "}"
    ensures d == [] ==> Dumps(d, escape) == "{}" && DumpIndented(d, escape, n) == "{}"
    ensures d != [] ==>
              DumpIndented(d, escape, n)
              == "{\n" + PyStr.Join(Items(d, escape, seq(n, _ => ' ')), ",\n") + "\n}"
    ensures DistinctNames(d) ==>
              var s := SortByName(d);
              && SortedByName(s) && multiset(s) == multiset(d)
              && DumpsSorted(d, escape) == Dumps(s, escape)
  {
    if d != [] {
      MembersAreJoined(d, escape, ", ", "");
      MembersAreJoined(d, escape, ",\n", seq(n, _ => ' '));
    }
    if DistinctNames(d) {
      SortByNameSortsAndPermutes(d);
    }
  }

  /** The canonical text depends only on the dict's contents: two dicts with the
      same name-to-value mapping, built in any order, serialise identically. */
  lemma DumpsSortedIgnoresOrder(d1: Dict, d2: Dict, escape: string -> string)
    requires DistinctNames(d1) && DistinctNames(d2)
    requires ToMap(d1) == ToMap(d2)
    ensures DumpsSorted(d1, escape) == DumpsSorted(d2, escape)
  {
    SameMapSameMembers(d1, d2);
    SortByNameSortsAndPermutes(d1);
    SortByNameSortsAndPermutes(d2);
    var s1 := SortByName(d1);
    var s2 := SortByName(d2);
    forall x ensures x in s1 <==> x in s2 {
      calc {
        x in s1;
        x in multiset(s1);
        x in multiset(d1);
        x in d1;
        x in d2;
        x in multiset(d2);
        x in multiset(s2);
        x in s2;
      }
    }
    SortedUnique(s1, s2);
  }
}

=== FILE: common.dfy ===
/** Failure-carrying wrappers and the byte type shared by every module. */
module Common {

  /** A value that may be absent; Python's `None` where a function returns one. */
  datatype Option<+T> = None | Some(value: T)

  /** The outcome of an operation that can raise: `Err` stands for the exception. */
  datatype Result<+T, +E> = Ok(value: T) | Err(error: E)

  /** An octet, as in Python's `bytes`. */
  newtype byte = b: int | 0 <= b < 256
}

=== FILE: drive_manager.dfy ===
/** The text-processing halves of `drive_manager.py`: turning `findmnt`'s root
    source into the boot drive's name, and filtering `lsblk`'s table down to the
    drives that may be offered for wiping. The commands' outputs are parameters. */
module DriveManager {
  import opened Common
  import opened PyStr

  /** The root source with surrounding whitespace and every `/dev/` removed. */
  function DeviceName(output: string): string {
    RemoveAll(Strip(output), "/dev/")
  }

  /** `get_boot_drive()`, given `findmnt -n -o SOURCE /`'s output (`None` when
      the command failed): the device name without its trailing digits. */
  function GetBootDrive(findmnt: Option<string>): (boot: Option<string>)
    ensures boot.None? <==> findmnt.None?
    ensures boot.Some? ==> var name := DeviceName(findmnt.value);
                           boot.value <= name && AllDigits(name[|boot.value|..])
    ensures boot.Some? && boot.value != [] ==> !IsDigit(boot.value[|boot.value| - 1])
  {
    match findmnt
    case None => None
    case Some(output) => Some(RStripDigits(DeviceName(output)))
  }

  /** A line is offered when it is not blank and its first column is not the
      boot drive (with no boot drive known, no line is excluded by name). */
  predicate Listed(line: string, boot: Option<string>) {
    var parts := Words(line);
    parts != [] && Some(parts[0]) != boot
  }

  /** The table rows of `lsblk` output: every line after the header. */
  function DataLines(output: string): seq<string> {
    SplitOn(Strip(output), '\n')[1..]
  }

  /** The rows kept, in their original order. */
  function KeptLines(lines: seq<string>, boot: Option<string>): seq<string>
    decreases |lines|
  {
    if lines == [] then []
    else
      var last := lines[|lines| - 1];
      KeptLines(lines[..|lines| - 1], boot) + (if Listed(last, boot) then [last] else [])
  }

  /** `list_drives()`, given `findmnt`'s output and `lsblk -d -o NAME,SIZE,MODEL,TRAN`'s
      output or the text of the exception it raised. */
  method ListDrives(findmnt: Option<string>, lsblk: Result<string, string>)
    returns (drives: seq<string>)
    ensures lsblk.Err? ==> drives == ["Error: " + lsblk.error]
    ensures lsblk.Ok? ==> drives == KeptLines(DataLines(lsblk.value), GetBootDrive(findmnt))
  {
    var boot := GetBootDrive(findmnt);
    match lsblk
    case Err(e) =>
      drives := ["Error: " + e];
    case Ok(output) =>
      drives := FilterRows(DataLines(output), boot);
  }

  /** The loop of `list_drives()` over the table rows: split each row into
      words and keep it when it has some and the first is not the boot drive. */
  method FilterRows(lines: seq<string>, boot: Option<string>) returns (drives: seq<string>)
    ensures drives == KeptLines(lines, boot)
  {
    drives := [];
    var i := 0;
    while i < |lines|
      invariant 0 <= i <= |lines|
      invariant drives == KeptLines(lines[..i], boot)
    {
      assert lines[..i + 1][..i] == lines[..i];
      assert KeptLines(lines[..i + 1], boot)
             == drives + (if Listed(lines[i], boot) then [lines[i]] else []);
      var parts := Words(lines[i]);
      if parts != [] && Some(parts[0]) != boot {
        drives := drives + [lines[i]];
      }
      i := i + 1;
    }
    assert lines[..i] == lines;
  }

  /** `a` occurs in `b` in order, possibly with gaps. */
  predicate SubsequenceOf(a: seq<string>, b: seq<string>)
    decreases |b|
  {
    || a == []
    || (&& b != []
        && ((a[|a| - 1] == b[|b| - 1] && SubsequenceOf(a[..|a| - 1], b[..|b| - 1]))
            || SubsequenceOf(a, b[..|b| - 1])))
  }

  /** Every kept row is a row of the input that is listed, and rows come out in
      input order. */
  lemma {:induction false} KeptLinesSound(lines: seq<string>, boot: Option<string>)
    ensures forall k :: 0 <= k < |KeptLines(lines, boot)| ==>
              KeptLines(lines, boot)[k] in lines && Listed(KeptLines(lines, boot)[k], boot)
    ensures SubsequenceOf(KeptLines(lines, boot), lines)
    decreases |lines|
  {
    if lines != [] {
      var init := lines[..|lines| - 1];
      var last := lines[|lines| - 1];
      KeptLinesSound(init, boot);
      var kept := KeptLines(init, boot);
      forall k | 0 <= k < |kept| ensures kept[k] in lines {
        assert kept[k] in init;
      }
      if Listed(last, boot) {
        var r := kept + [last];
        assert KeptLines(lines, boot) == r;
        assert r[..|r| - 1] == kept && r[|r| - 1] == last;
        assert SubsequenceOf(r, lines);
      } else {
        assert KeptLines(lines, boot) == kept;
        assert SubsequenceOf(kept, lines);
      }
    }
  }

  /** Every listed row of the input is kept, as many times as it occurs. */
  lemma {:induction false} KeptLinesComplete(lines: seq<string>, boot: Option<string>)
    ensures forall l :: l in lines && Listed(l, boot) ==> l in KeptLines(lines, boot)
    ensures forall l :: Listed(l, boot) ==>
              multiset(KeptLines(lines, boot))[l] == multiset(lines)[l]
    decreases |lines|
  {
    if lines != [] {
      var init := lines[..|lines| - 1];
      var last := lines[|lines| - 1];
      KeptLinesComplete(init, boot);
      assert lines == init + [last];
      assert forall l :: l in lines ==> l in init || l == last;
    }
  }

  /** Kept rows are never blank and never start with the boot drive's name. */
  lemma KeptLinesNotBlankNotBoot(lines: seq<string>, boot: Option<string>)
    ensures forall l :: l in KeptLines(lines, boot) ==>
              !AllSpace(l) && Words(l) != [] && (boot.Some? ==> Words(l)[0] != boot.value)
  {
    KeptLinesSound(lines, boot);
    forall l | l in KeptLines(lines, boot)
      ensures !AllSpace(l) && Words(l) != [] && (boot.Some? ==> Words(l)[0] != boot.value)
    {
      WordsEmptyIffBlank(l);
    }
  }

  /** Without a boot drive (`findmnt` failed), exactly the non-blank rows are kept. */
  lemma NoBootDriveKeepsAllNonBlank(lines: seq<string>, l: string)
    requires l in lines
    ensures l in KeptLines(lines, None) <==> !AllSpace(l)
  {
    KeptLinesSound(lines, None);
    KeptLinesComplete(lines, None);
    WordsEmptyIffBlank(l);
  }

  /** How Linux names partition `num` of disk `disk`: a `p` goes in between
      when the disk's name ends in a digit (`nvme0n1p2`, `mmcblk0p1`, but `sda1`). */
  function PartitionName(disk: string, num: string): string {
    if disk != [] && IsDigit(disk[|disk| - 1]) then disk + "p" + num else disk + num
  }

  /** A name the kernel could give a whole disk: non-empty, one path component,
      no whitespace, and not ending in digit-then-`p` (which would make its
      partitions' names ambiguous). */
  predicate DiskName(disk: string) {
    && disk != []
    && NoSpace(disk)
    && '/' !in disk
    && !(|disk| >= 2 && disk[|disk| - 1] == 'p' && IsDigit(disk[|disk| - 2]))
  }

  /** A partition number as the kernel writes it. */
  predicate PartitionNumber(num: string) {
    num != [] && AllDigits(num)
  }

  lemma {:induction false} RStripDigitsAppend(s: string, num: string)
    requires AllDigits(num)
    ensures RStripDigits(s + num) == RStripDigits(s)
    decreases |num|
  {
    if num != [] {
      var init := num[..|num| - 1];
      var t := s + num;
      assert t[..|t| - 1] == s + init;
      assert t[|t| - 1] == num[|num| - 1];
      assert IsDigit(t[|t| - 1]);
      assert RStripDigits(t) == RStripDigits(s + init);
      RStripDigitsAppend(s, init);
    } else {
      assert s + num == s;
    }
  }

  /** One path component without whitespace. */
  predicate Plain(s: string) {
    NoSpace(s) && '/' !in s
  }

  lemma PlainConcat(a: string, b: string)
    requires Plain(a) && Plain(b)
    ensures Plain(a + b)
  {
    var s := a + b;
    forall i | 0 <= i < |s| ensures !IsSpace(s[i]) && s[i] != '/' {
      if i >= |a| {
        assert s[i] == b[i - |a|];
      }
    }
  }

  lemma DigitsArePlain(num: string)
    requires AllDigits(num)
    ensures Plain(num)
  {
    forall i | 0 <= i < |num| ensures !IsSpace(num[i]) && num[i] != '/' {
      assert IsDigit(num[i]);
    }
  }

  /** The root source's device name, as `get_boot_drive` reads it. */
  lemma DeviceNameOfPath(part: string)
    requires Plain(part)
    ensures DeviceName("/dev/" + part) == part
  {
    var s := "/dev/" + part;
    assert NoSpace(s) by {
      forall i | 0 <= i < |s| ensures !IsSpace(s[i]) {
        if i >= 5 {
          assert s[i] == part[i - 5];
        }
      }
    }
    assert "/dev/" <= s;
    assert s[|"/dev/"|..] == part;
  }

  /** A partition's name is plain, and stripping its trailing digits leaves the
      disk's name, followed by the `p` separator where one was inserted. */
  lemma PartitionNameStrips(disk: string, num: string)
    requires DiskName(disk) && PartitionNumber(num)
    ensures Plain(PartitionName(disk, num))
    ensures RStripDigits(PartitionName(disk, num))
            == if IsDigit(disk[|disk| - 1]) then disk + "p" else disk
  {
    DigitsArePlain(num);
    if IsDigit(disk[|disk| - 1]) {
      PlainConcat(disk, "p");
      PlainConcat(disk + "p", num);
      RStripDigitsAppend(disk + "p", num);
    } else {
      PlainConcat(disk, num);
      RStripDigitsAppend(disk, num);
    }
  }

  /** For a disk whose name does not end in a digit (`sda`, `vdb`), the boot
      drive is the disk itself: `/dev/sda1` gives `sda`. */
  lemma BootDriveOfPlainDisk(disk: string, num: string)
    requires DiskName(disk) && !IsDigit(disk[|disk| - 1]) && PartitionNumber(num)
    ensures GetBootDrive(Some("/dev/" + PartitionName(disk, num))) == Some(disk)
  {
    PartitionNameStrips(disk, num);
    DeviceNameOfPath(PartitionName(disk, num));
  }

  lemma SdaExample()
    ensures GetBootDrive(Some("/dev/sda1")) == Some("sda")
  {
    assert "/dev/sda1" == "/dev/" + PartitionName("sda", "1");
    BootDriveOfPlainDisk("sda", "1");
  }

  /** As written, for a disk whose name ends in a digit the boot drive keeps the
      partition separator: `/dev/nvme0n1p2` gives `nvme0n1p`, which is no disk,
      so `lsblk`'s row for the boot disk itself is still offered for wiping. */
  lemma NvmeBootDriveKeepsSeparator(disk: string, num: string)
    requires DiskName(disk) && IsDigit(disk[|disk| - 1]) && PartitionNumber(num)
    ensures GetBootDrive(Some("/dev/" + PartitionName(disk, num))) == Some(disk + "p")
  {
    PartitionNameStrips(disk, num);
    DeviceNameOfPath(PartitionName(disk, num));
  }

  /** ... so `lsblk`'s row for the boot disk itself stays on offer. */
  lemma NvmeBootDiskStaysListed(disk: string, num: string, row: string)
    requires DiskName(disk) && IsDigit(disk[|disk| - 1]) && PartitionNumber(num)
    requires Words(row) != [] && Words(row)[0] == disk
    ensures Listed(row, GetBootDrive(Some("/dev/" + PartitionName(disk, num))))
  {
    NvmeBootDriveKeepsSeparator(disk, num);
    assert |disk + "p"| != |disk|;
  }

  /** A device name without its partition number: trailing digits go, and so
      does a `p` they leave behind right after a digit. */
  function DiskOf(name: string): string {
    var trimmed := RStripDigits(name);
    if |trimmed| < |name| && |trimmed| >= 2 && trimmed[|trimmed| - 1] == 'p'
       && IsDigit(trimmed[|trimmed| - 2])
    then trimmed[..|trimmed| - 1]
    else trimmed
  }

  /** The boot disk by the kernel's partition naming: `get_boot_drive` with
      the partition separator removed as well. */
  function BootDisk(findmnt: Option<string>): Option<string> {
    match findmnt
    case None => None
    case Some(output) => Some(DiskOf(DeviceName(output)))
  }

  /** `DiskOf` inverts `PartitionName` for both naming schemes. */
  lemma DiskOfPartitionName(disk: string, num: string)
    requires DiskName(disk) && PartitionNumber(num)
    ensures DiskOf(PartitionName(disk, num)) == disk
  {
    var part := PartitionName(disk, num);
    PartitionNameStrips(disk, num);
    if IsDigit(disk[|disk| - 1]) {
      assert |part| > |disk + "p"|;
      assert (disk + "p")[..|disk|] == disk;
    } else {
      assert |part| > |disk|;
    }
  }

  /** The corrected boot disk recovers the disk from any of its partitions,
      for either naming scheme. */
  lemma BootDiskOfPartition(disk: string, num: string)
    requires DiskName(disk) && PartitionNumber(num)
    ensures BootDisk(Some("/dev/" + PartitionName(disk, num))) == Some(disk)
  {
    PartitionNameStrips(disk, num);
    DeviceNameOfPath(PartitionName(disk, num));
    DiskOfPartitionName(disk, num);
  }

  /** `list_drives` with the corrected boot disk: the boot disk's own row is
      never offered, whichever naming scheme its partitions follow. */
  lemma CorrectedListingExcludesBootDisk(disk: string, num: string, lsblk: string)
    requires DiskName(disk) && PartitionNumber(num)
    ensures var boot := BootDisk(Some("/dev/" + PartitionName(disk, num)));
            forall l :: l in KeptLines(DataLines(lsblk), boot) ==>
                           Words(l) != [] && Words(l)[0] != disk
  {
    BootDiskOfPartition(disk, num);
    KeptLinesNotBlankNotBoot(DataLines(lsblk), Some(disk));
  }
}

=== FILE: json_value.dfy ===
/** The values Python's `json.load` returns for documents whose numbers are
    all integers (a `float`, `NaN` or `Infinity` has no case here), with the
    two Python notions the verifier depends on: truthiness (`not x`) and
    hashability (whether `x in some_dict` can be asked at all). */
module JsonValue {

  datatype Json =
    | JNull
    | JBool(b: bool)
    | JInt(i: int)
    | JStr(s: string)
    | JArray(items: seq<Json>)
    | JObject(members: map<string, Json>)

  /** A decoded JSON object, i.e. a Python `dict` with string keys. */
  type Object = map<string, Json>

  /** Python truthiness: `None`, `False`, `0`, `""`, `[]` and `{}` are false. */
  predicate Truthy(v: Json) {
    match v
    case JNull => false
    case JBool(b) => b
    case JInt(i) => i != 0
    case JStr(s) => s != []
    case JArray(items) => items != []
    case JObject(members) => members != map[]
  }

  /** Lists and dicts cannot be dictionary keys; asking `x in d` of them raises
      `TypeError`. */
  predicate Hashable(v: Json) {
    !v.JArray? && !v.JObject?
  }

  /** `obj.get(key)`: the stored value, or `None` when the key is absent. */
  function Get(obj: Object, key: string): (v: Json)
    ensures key in obj ==> v == obj[key]
    ensures key !in obj ==> v == JNull && !Truthy(v)
  {
    if key in obj then obj[key] else JNull
  }
}

=== FILE: key_store.dfy ===
/** `load_private_key` of `report_generatpr.py`: a load-or-create key slot
    (the file `keys/private_key.pem`). Ed25519 key generation is random and
    enters as the key the generator would produce; PEM encoding and decoding
    are foreign and enter as the functions of a `KeyCodec`. */
module KeyStore {
  import opened Common

  /** An Ed25519 private key, known only by its secret bytes. */
  datatype PrivateKey = PrivateKey(secret: seq<byte>)

  /** The key file: absent, or holding some bytes (meant to be PKCS#8 PEM). */
  datatype KeySlot = NoKeyFile | KeyFile(pem: seq<byte>)

  /** `private_bytes(PEM, PKCS8, NoEncryption)` and `load_pem_private_key`,
      the latter failing (`None`) on bytes it cannot decode. */
  datatype KeyCodec = KeyCodec(
    toPem: PrivateKey -> seq<byte>,
    fromPem: seq<byte> -> Option<PrivateKey>)

  /** Decoding what was encoded gives the key back. */
  ghost predicate RoundTrips(codec: KeyCodec) {
    forall k :: codec.fromPem(codec.toPem(k)) == Some(k)
  }

  /** `load_pem_private_key` raised: the key file exists but is not a key. */
  datatype KeyFault = UndecodableKeyFile

  /** The key handed back together with the key file left behind. */
  datatype Loaded = Loaded(key: PrivateKey, slot: KeySlot)

  /** The key a slot holds, if it holds a decodable one. */
  function Stored(slot: KeySlot, codec: KeyCodec): Option<PrivateKey> {
    match slot
    case NoKeyFile => None
    case KeyFile(pem) => codec.fromPem(pem)
  }

  /** `load_private_key()`: an existing key file is decoded and left alone (a
      file that does not decode raises); without one, the freshly generated
      key is written out and returned. */
  function LoadPrivateKey(slot: KeySlot, codec: KeyCodec, generated: PrivateKey)
    : (r: Result<Loaded, KeyFault>)
    ensures r.Ok? ==> r.value.slot.KeyFile?
    ensures slot.KeyFile? && r.Ok? ==> r.value.slot == slot
    ensures slot.KeyFile? ==> (r.Ok? <==> Stored(slot, codec).Some?)
    ensures slot.KeyFile? && r.Ok? ==> Some(r.value.key) == Stored(slot, codec)
    ensures slot.NoKeyFile? ==> r.Ok? && r.value.key == generated
    ensures slot.NoKeyFile? ==> r.value.slot == KeyFile(codec.toPem(generated))
    ensures RoundTrips(codec) && r.Ok? ==> Stored(r.value.slot, codec) == Some(r.value.key)
  {
    match slot
    case KeyFile(pem) =>
      (match codec.fromPem(pem)
       case Some(key) => Ok(Loaded(key, slot))
       case None => Err(UndecodableKeyFile))
    case NoKeyFile =>
      Ok(Loaded(generated, KeyFile(codec.toPem(generated))))
  }

  /** Two calls in a row return the same key, the second leaves the key file
      as the first wrote it, and the second call's generator output is never
      used. */
  lemma LoadTwiceSameKey(slot: KeySlot, codec: KeyCodec, g1: PrivateKey, g2: PrivateKey)
    requires RoundTrips(codec)
    requires LoadPrivateKey(slot, codec, g1).Ok?
    ensures LoadPrivateKey(LoadPrivateKey(slot, codec, g1).value.slot, codec, g2)
            == LoadPrivateKey(slot, codec, g1)
  {
  }
}

=== FILE: ledger.dfy ===
/** The local anchoring ledger of `blockchain_connector.py`: a JSON file mapping
    each transaction id to `{"hash": final_hash}`. The file is abstracted to its
    three observable states; every operation is a pure function of the state it
    reads, and `AnchorHash` returns the state it writes. */
module Ledger {

  /** One ledger entry, `{"hash": final_hash}`. */
  datatype Record = Record(hash: string)

  /** The decoded ledger: transaction id to record. */
  type Entries = map<string, Record>

  /** The ledger file: absent, present but holding text that `json.load`
      rejects with `JSONDecodeError`, or a decoded ledger. */
  datatype Store = Missing | Corrupt | Valid(entries: Entries)

  /** What `anchor_hash` hands back (the transaction id) together with the file
      it leaves behind. */
  datatype Anchored = Anchored(txid: string, store: Store)

  /** `get_ledger` (and the identical load step at the top of `anchor_hash`):
      a missing or unparsable file reads as the empty ledger. */
  function GetLedger(store: Store): (ledger: Entries)
    ensures store.Valid? ==> ledger == store.entries
    ensures !store.Valid? ==> ledger == map[]
  {
    match store
    case Valid(entries) => entries
    case _ => map[]
  }

  /** `anchor_hash(final_hash)`: the transaction id is the hash itself; the
      loaded ledger gains (or has overwritten) that one key and is written back. */
  function AnchorHash(store: Store, finalHash: string): (a: Anchored)
    ensures a.txid == finalHash
    ensures a.store.Valid?
    ensures a.store.entries.Keys == GetLedger(store).Keys + {finalHash}
    ensures a.store.entries[finalHash] == Record(finalHash)
    ensures forall k :: k in GetLedger(store) && k != finalHash ==>
              a.store.entries[k] == GetLedger(store)[k]
  {
    var txid := finalHash;
    Anchored(txid, Valid(GetLedger(store)[txid := Record(finalHash)]))
  }

  /** `verify_hash(txid)`: membership of the id in the loaded ledger. */
  function VerifyHash(store: Store, txid: string): (present: bool)
    ensures present <==> txid in GetLedger(store)
  {
    txid in GetLedger(store)
  }

  /** Anchoring a hash a second time writes exactly the ledger the first call wrote. */
  lemma AnchorIdempotent(store: Store, h: string)
    ensures var once := AnchorHash(store, h);
            AnchorHash(once.store, h) == once
  {
    var once := AnchorHash(store, h);
    var twice := AnchorHash(once.store, h);
    assert twice.store.entries == once.store.entries;
  }

  /** A missing or corrupt ledger is treated as empty: afterwards it holds only
      the new entry. */
  lemma AnchorResetsUnreadable(store: Store, h: string)
    requires !store.Valid?
    ensures AnchorHash(store, h).store == Valid(map[h := Record(h)])
  {
  }

  /** After anchoring `h`, an id verifies exactly when it is `h` or it verified
      before: the anchored hash becomes visible and nothing else is gained or lost. */
  lemma AnchorThenVerifyHash(store: Store, h: string, t: string)
    ensures VerifyHash(AnchorHash(store, h).store, t) <==> t == h || VerifyHash(store, t)
  {
  }

  /** Every id keys a record that carries that very id as its hash. */
  ghost predicate SelfKeyed(entries: Entries) {
    forall k :: k in entries ==> entries[k].hash == k
  }

  /** Anchoring a sequence of hashes one after another. */
  function AnchorEach(store: Store, hashes: seq<string>): Store
    decreases |hashes|
  {
    if hashes == [] then store else AnchorEach(AnchorHash(store, hashes[0]).store, hashes[1..])
  }

  /** A ledger built only by `anchor_hash`, from whatever self-keyed (or unreadable)
      file it started at, stays self-keyed, and its ids are the old ones plus the
      anchored hashes. */
  lemma {:induction false} AnchorEachSelfKeyed(store: Store, hashes: seq<string>)
    requires SelfKeyed(GetLedger(store))
    ensures SelfKeyed(GetLedger(AnchorEach(store, hashes)))
    ensures GetLedger(AnchorEach(store, hashes)).Keys
            == GetLedger(store).Keys + set h | h in hashes
    decreases |hashes|
  {
    if hashes != [] {
      var next := AnchorHash(store, hashes[0]).store;
      assert SelfKeyed(GetLedger(next));
      AnchorEachSelfKeyed(next, hashes[1..]);
      assert (set h | h in hashes) == {hashes[0]} + set h | h in hashes[1..];
    }
  }

  /** From an empty, missing or corrupt file, anchoring alone yields a ledger in
      which every key equals the hash in its record. */
  lemma AnchoredLedgerSelfKeyed(store: Store, hashes: seq<string>)
    requires GetLedger(store) == map[]
    ensures SelfKeyed(GetLedger(AnchorEach(store, hashes)))
  {
    AnchorEachSelfKeyed(store, hashes);
  }
}

=== FILE: pystr.dfy ===
/** The few Python `str` methods the tool relies on, with their Python semantics:
    argument-less `strip()` and `split()` (Unicode whitespace, runs collapsed),
    `rstrip(chars)`, `split(sep)`, `replace(old, "")`, `endswith` and `rpartition`. */
module PyStr {

  /** Python's `str.isspace()` on one character; the argument-less `strip()`
      and `split()` treat exactly these characters as whitespace. */
  predicate IsSpace(c: char) {
    || ('\t' <= c <= '\r')
    || ('\U{1c}' <= c <= ' ')
    || c == '\U{85}' || c == '\U{a0}' || c == '\U{1680}'
    || ('\U{2000}' <= c <= '\U{200a}')
    || c == '\U{2028}' || c == '\U{2029}' || c == '\U{202f}' || c == '\U{205f}'
    || c == '\U{3000}'
  }

  /** Membership in the literal `"0123456789"`. */
  predicate IsDigit(c: char) {
    '0' <= c <= '9'
  }

  predicate AllSpace(s: string) {
    forall i :: 0 <= i < |s| ==> IsSpace(s[i])
  }

  predicate NoSpace(s: string) {
    forall i :: 0 <= i < |s| ==> !IsSpace(s[i])
  }

  predicate AllDigits(s: string) {
    forall i :: 0 <= i < |s| ==> IsDigit(s[i])
  }

  /** `s.endswith(suffix)` */
  predicate EndsWith(s: string, suffix: string) {
    |suffix| <= |s| && s[|s| - |suffix|..] == suffix
  }

  /** `s.endswith(suffix)` holds exactly when `s` is some text followed by `suffix`. */
  lemma EndsWithConcat(s: string, suffix: string)
    ensures EndsWith(s, suffix) <==> exists p :: s == p + suffix
  {
    if EndsWith(s, suffix) {
      assert s == s[..|s| - |suffix|] + suffix;
    }
    if exists p :: s == p + suffix {
      var p :| s == p + suffix;
      assert s[|p|..] == suffix;
    }
  }

  /** How many whitespace characters `s` starts with. */
  function Lead(s: string): (n: nat)
    ensures n <= |s|
    ensures forall i :: 0 <= i < n ==> IsSpace(s[i])
    ensures n < |s| ==> !IsSpace(s[n])
  {
    if s != [] && IsSpace(s[0]) then 1 + Lead(s[1..]) else 0
  }

  /** How many whitespace characters `s` ends with. */
  function Trail(s: string): (n: nat)
    ensures n <= |s|
    ensures forall i :: |s| - n <= i < |s| ==> IsSpace(s[i])
    ensures n < |s| ==> !IsSpace(s[|s| - n - 1])
  {
    if s != [] && IsSpace(s[|s| - 1]) then 1 + Trail(s[..|s| - 1]) else 0
  }

  /** `s.rstrip("0123456789")`: the prefix left after dropping the trailing decimal digits. */
  function RStripDigits(s: string): (r: string)
    ensures r <= s
    ensures forall i :: |r| <= i < |s| ==> IsDigit(s[i])
    ensures r != [] ==> !IsDigit(r[|r| - 1])
  {
    if s != [] && IsDigit(s[|s| - 1]) then RStripDigits(s[..|s| - 1]) else s
  }

  /** `s.strip()`: `s` without its leading and trailing whitespace. */
  function Strip(s: string): (r: string)
    ensures |r| <= |s|
    ensures r == [] <==> AllSpace(s)
    ensures r != [] ==> !IsSpace(r[0]) && !IsSpace(r[|r| - 1])
    ensures NoSpace(s) ==> r == s
  {
    var i := Lead(s);
    if i == |s| then []
    else
      var j := |s| - Trail(s);
      assert i < j;
      s[i..j]
  }

  /** Stripping cuts only whitespace, and only at the ends: `s` is what
      `strip` keeps with a blank prefix and a blank suffix around it. */
  lemma StripCutsBlanks(s: string)
    ensures exists p, q :: AllSpace(p) && AllSpace(q) && s == p + Strip(s) + q
  {
    var i := Lead(s);
    var j := if i == |s| then i else |s| - Trail(s);
    assert Strip(s) == s[i..j];
    StripWindow(s, i, j);
  }

  /** Cutting a blank prefix and a blank suffix off `s` leaves a window that
      `s` is made of with them. */
  lemma StripWindow(s: string, i: nat, j: nat)
    requires i <= j <= |s|
    requires forall k :: 0 <= k < i ==> IsSpace(s[k])
    requires forall k :: j <= k < |s| ==> IsSpace(s[k])
    ensures exists p, q :: AllSpace(p) && AllSpace(q) && s == p + s[i..j] + q
  {
    var p, q := s[..i], s[j..];
    assert forall k :: 0 <= k < |q| ==> q[k] == s[j + k];
    assert AllSpace(p) && AllSpace(q) && s == p + s[i..j] + q;
  }

  /** The longest prefix of `s` that holds no whitespace. */
  function Word(s: string): (w: string)
    ensures w <= s && NoSpace(w)
    ensures |w| < |s| ==> IsSpace(s[|w|])
  {
    if s == [] || IsSpace(s[0]) then [] else [s[0]] + Word(s[1..])
  }

  /** `s.split()`: the maximal runs of non-whitespace characters, in order. */
  function Words(s: string): (r: seq<string>)
    ensures forall k :: 0 <= k < |r| ==> r[k] != [] && NoSpace(r[k])
    decreases |s|
  {
    if s == [] then []
    else if IsSpace(s[0]) then Words(s[1..])
    else
      var w := Word(s);
      [w] + Words(s[|w|..])
  }

  /** A line splits into no words exactly when it is blank. */
  lemma {:induction false} WordsEmptyIffBlank(s: string)
    ensures Words(s) == [] <==> AllSpace(s)
    decreases |s|
  {
    if s != [] && IsSpace(s[0]) {
      WordsEmptyIffBlank(s[1..]);
      assert forall i :: 1 <= i < |s| ==> s[i] == s[1..][i - 1];
    }
  }

  /** The first word is the longest whitespace-free prefix of the line after its
      leading whitespace. */
  lemma {:induction false} FirstWordLeads(s: string)
    requires Words(s) != []
    ensures Words(s)[0] == Word(s[Lead(s)..])
    decreases |s|
  {
    if IsSpace(s[0]) {
      FirstWordLeads(s[1..]);
      assert s[1..][Lead(s[1..])..] == s[Lead(s)..];
    }
  }

  /** `sep.join(parts)`: the parts in order with `sep` between neighbours. */
  function Join(parts: seq<string>, sep: string): string
    requires |parts| >= 1
  {
    if |parts| == 1 then parts[0] else parts[0] + sep + Join(parts[1..], sep)
  }

  /** Growing the first part by one character grows the joined text by it. */
  lemma JoinConsFirst(c: char, parts: seq<string>, sep: string)
    requires |parts| >= 1
    ensures Join([[c] + parts[0]] + parts[1..], sep) == [c] + Join(parts, sep)
  {
    var q := [[c] + parts[0]] + parts[1..];
    assert q[1..] == parts[1..];
  }

  /** An empty first part contributes only the separator after it. */
  lemma JoinEmptyFirst(parts: seq<string>, sep: string)
    requires |parts| >= 1
    ensures Join([[]] + parts, sep) == sep + Join(parts, sep)
  {
    assert ([[]] + parts)[1..] == parts;
  }

  /** `s.split(sep)` for a one-character separator: every occurrence cuts, so
      empty pieces survive and there is always at least one piece. */
  function SplitOn(s: string, sep: char): (parts: seq<string>)
    ensures |parts| >= 1
    ensures forall k :: 0 <= k < |parts| ==> sep !in parts[k]
    ensures Join(parts, [sep]) == s
  {
    if s == [] then [[]]
    else
      var rest := SplitOn(s[1..], sep);
      if s[0] == sep then [[]] + rest
      else
        JoinConsFirst(s[0], rest, [sep]);
        [[s[0]] + rest[0]] + rest[1..]
  }

  /** `pat` occurs in `s` as a contiguous substring. */
  predicate Occurs(pat: string, s: string) {
    exists i :: 0 <= i <= |s| && pat <= s[i..]
  }

  /** `s.split(pat)`: a left-to-right scan that cuts at each non-overlapping
      occurrence of `pat`, so empty pieces survive and there is always at
      least one piece. */
  function SplitAt(s: string, pat: string): (parts: seq<string>)
    requires pat != []
    ensures |parts| >= 1
    decreases |s|
  {
    if s == [] then [[]]
    else if pat <= s then [[]] + SplitAt(s[|pat|..], pat)
    else
      var rest := SplitAt(s[1..], pat);
      [[s[0]] + rest[0]] + rest[1..]
  }

  /** Joining the pieces of `s.split(pat)` with `pat` gives `s` back. */
  lemma {:induction false} SplitAtJoin(s: string, pat: string)
    requires pat != []
    ensures Join(SplitAt(s, pat), pat) == s
    decreases |s|
  {
    if s == [] {
    } else if pat <= s {
      var rest := SplitAt(s[|pat|..], pat);
      SplitAtJoin(s[|pat|..], pat);
      JoinEmptyFirst(rest, pat);
      assert s == pat + s[|pat|..];
    } else {
      var rest := SplitAt(s[1..], pat);
      SplitAtJoin(s[1..], pat);
      JoinConsFirst(s[0], rest, pat);
      assert s == [s[0]] + s[1..];
    }
  }

  /** `pat` starts nowhere in `piece + pat` before the appended copy: the cut
      after `piece` is at the leftmost occurrence. */
  predicate CutAtFirstMatch(piece: string, pat: string) {
    forall i :: 0 <= i < |piece| ==> !(pat <= (piece + pat)[i..])
  }

  /** The last piece of `s.split(pat)` holds no occurrence of `pat`. */
  lemma {:induction false} SplitAtLastFree(s: string, pat: string)
    requires pat != []
    ensures var parts := SplitAt(s, pat); !Occurs(pat, parts[|parts| - 1])
    decreases |s|
  {
    if s == [] {
    } else if pat <= s {
      SplitAtLastFree(s[|pat|..], pat);
    } else {
      var rest := SplitAt(s[1..], pat);
      SplitAtLastFree(s[1..], pat);
      if |rest| == 1 {
        SplitAtJoin(s[1..], pat);
        assert rest == [s[1..]];
        assert SplitAt(s, pat) == [[s[0]] + s[1..]];
        assert [s[0]] + s[1..] == s;
        forall i | 0 <= i <= |s| ensures !(pat <= s[i..]) {
          if i > 0 {
            assert s[i..] == s[1..][i - 1..];
          }
        }
      } else {
        assert SplitAt(s, pat)[|rest| - 1] == rest[|rest| - 1];
      }
    }
  }

  /** Every piece of `s.split(pat)` but the last ends where the leftmost
      occurrence of `pat` after its start begins. */
  lemma {:induction false} SplitAtCutsLeftmost(s: string, pat: string)
    requires pat != []
    ensures forall k :: 0 <= k < |SplitAt(s, pat)| - 1 ==> CutAtFirstMatch(SplitAt(s, pat)[k], pat)
    decreases |s|
  {
    var parts := SplitAt(s, pat);
    if s == [] {
    } else if pat <= s {
      var rest := SplitAt(s[|pat|..], pat);
      SplitAtCutsLeftmost(s[|pat|..], pat);
      assert parts == [[]] + rest;
      forall k | 1 <= k < |parts| - 1 ensures CutAtFirstMatch(parts[k], pat) {
        assert 0 <= k - 1 < |rest| - 1;
        assert parts[k] == rest[k - 1];
        assert CutAtFirstMatch(rest[k - 1], pat);
      }
    } else {
      var rest := SplitAt(s[1..], pat);
      SplitAtCutsLeftmost(s[1..], pat);
      if |rest| > 1 {
        SplitAtJoin(s[1..], pat);
        var tail := Join(rest[1..], pat);
        assert s == [s[0]] + rest[0] + pat + tail by {
          assert s == [s[0]] + s[1..];
        }
        ConsKeepsCut(s[0], rest[0], pat, tail);
        forall k | 1 <= k < |parts| - 1 ensures CutAtFirstMatch(parts[k], pat) {
          assert parts[k] == rest[k];
        }
      }
    }
  }

  /** Growing a piece by the character in front of it keeps its cut leftmost
      when `pat` does not start at that character. */
  lemma ConsKeepsCut(c: char, piece: string, pat: string, tail: string)
    requires pat != []
    requires !(pat <= [c] + piece + pat + tail)
    requires CutAtFirstMatch(piece, pat)
    ensures CutAtFirstMatch([c] + piece, pat)
  {
    var first := [c] + piece;
    forall i | 0 <= i < |first| ensures !(pat <= (first + pat)[i..]) {
      if i == 0 {
        assert first + pat <= first + pat + tail;
      } else {
        assert (first + pat)[i..] == (piece + pat)[i - 1..];
      }
    }
  }

  /** The leftmost cuts determine the pieces: pieces that join back to `s`
      with `pat`, each cut at the leftmost occurrence and the last free of
      `pat`, are exactly the pieces of `s.split(pat)`. */
  lemma {:induction false} SplitAtUnique(s: string, pat: string, parts: seq<string>)
    requires pat != [] && |parts| >= 1
    requires Join(parts, pat) == s
    requires !Occurs(pat, parts[|parts| - 1])
    requires forall k :: 0 <= k < |parts| - 1 ==> CutAtFirstMatch(parts[k], pat)
    ensures parts == SplitAt(s, pat)
    decreases |s|
  {
    if |parts| == 1 && parts[0] == [] {
      assert parts == [[]];
    } else if parts[0] == [] {
      var tail := parts[1..];
      assert s == pat + Join(tail, pat);
      assert s[|pat|..] == Join(tail, pat);
      forall k | 0 <= k < |tail| - 1 ensures CutAtFirstMatch(tail[k], pat) {
        assert tail[k] == parts[k + 1];
      }
      SplitAtUnique(s[|pat|..], pat, tail);
      assert parts == [[]] + tail;
    } else {
      var c := parts[0][0];
      var q := [parts[0][1..]] + parts[1..];
      assert [c] + q[0] == parts[0] && q[1..] == parts[1..];
      assert parts == [[c] + q[0]] + q[1..];
      JoinConsFirst(c, q, pat);
      FirstPieceNotMatch(s, pat, parts);
      DropFirstChar(parts, pat, q);
      SplitAtUnique(s[1..], pat, q);
    }
  }

  /** When the first piece is not empty, `pat` does not start the joined text. */
  lemma FirstPieceNotMatch(s: string, pat: string, parts: seq<string>)
    requires pat != [] && |parts| >= 1 && parts[0] != []
    requires Join(parts, pat) == s
    requires !Occurs(pat, parts[|parts| - 1])
    requires forall k :: 0 <= k < |parts| - 1 ==> CutAtFirstMatch(parts[k], pat)
    ensures !(pat <= s)
  {
    if |parts| == 1 {
      assert s[0..] == s;
    } else {
      var head := parts[0] + pat;
      assert s == head + Join(parts[1..], pat);
      assert head[0..] == head;
      assert !(pat <= head);
    }
  }

  /** Dropping the first character of a non-empty first piece keeps the
      pieces free of `pat` and cut at leftmost occurrences. */
  lemma DropFirstChar(parts: seq<string>, pat: string, q: seq<string>)
    requires pat != [] && |parts| >= 1 && parts[0] != []
    requires q == [parts[0][1..]] + parts[1..]
    requires !Occurs(pat, parts[|parts| - 1])
    requires forall k :: 0 <= k < |parts| - 1 ==> CutAtFirstMatch(parts[k], pat)
    ensures !Occurs(pat, q[|q| - 1])
    ensures forall k :: 0 <= k < |q| - 1 ==> CutAtFirstMatch(q[k], pat)
  {
    var p0 := parts[0];
    if |parts| == 1 {
      forall i | 0 <= i <= |p0[1..]| ensures !(pat <= p0[1..][i..]) {
        assert p0[1..][i..] == p0[i + 1..];
      }
    } else {
      assert q[|q| - 1] == parts[|parts| - 1];
      assert CutAtFirstMatch(p0[1..], pat) by {
        forall i | 0 <= i < |p0[1..]| ensures !(pat <= (p0[1..] + pat)[i..]) {
          assert (p0[1..] + pat)[i..] == (p0 + pat)[i + 1..];
        }
      }
      forall k | 1 <= k < |q| - 1 ensures CutAtFirstMatch(q[k], pat) {
        assert q[k] == parts[k];
      }
    }
  }

  /** `s.replace(pat, "")`: one left-to-right pass that deletes each
      non-overlapping occurrence of `pat`. */
  function RemoveAll(s: string, pat: string): (r: string)
    requires pat != []
    ensures |r| <= |s|
    ensures pat[0] !in s ==> r == s
    decreases |s|
  {
    if s == [] then []
    else if pat <= s then RemoveAll(s[|pat|..], pat)
    else [s[0]] + RemoveAll(s[1..], pat)
  }

  /** `s.replace(pat, "") == "".join(s.split(pat))`: deleting the occurrences
      is concatenating the pieces between them. */
  lemma {:induction false} RemoveAllJoinsPieces(s: string, pat: string)
    requires pat != []
    ensures RemoveAll(s, pat) == Join(SplitAt(s, pat), [])
    decreases |s|
  {
    if s == [] {
    } else if pat <= s {
      RemoveAllJoinsPieces(s[|pat|..], pat);
      JoinEmptyFirst(SplitAt(s[|pat|..], pat), []);
    } else {
      RemoveAllJoinsPieces(s[1..], pat);
      JoinConsFirst(s[0], SplitAt(s[1..], pat), []);
    }
  }

  /** `s.replace(pat, "")` is the text between the leftmost non-overlapping
      occurrences of `pat`: whatever pieces `s` is cut into at those
      occurrences, deleting them leaves the pieces run together. */
  lemma RemoveAllDeletesCuts(s: string, pat: string, parts: seq<string>)
    requires pat != [] && |parts| >= 1
    requires Join(parts, pat) == s
    requires !Occurs(pat, parts[|parts| - 1])
    requires forall k :: 0 <= k < |parts| - 1 ==> CutAtFirstMatch(parts[k], pat)
    ensures RemoveAll(s, pat) == Join(parts, [])
  {
    SplitAtUnique(s, pat, parts);
    RemoveAllJoinsPieces(s, pat);
  }

  /** Text in which `pat` does not occur comes through `replace` unchanged. */
  lemma {:induction false} RemoveAllAbsent(s: string, pat: string)
    requires pat != []
    ensures !Occurs(pat, s) ==> RemoveAll(s, pat) == s
    decreases |s|
  {
    if s != [] && !Occurs(pat, s) {
      assert s[0..] == s;
      assert !Occurs(pat, s[1..]) by {
        forall i | 0 <= i <= |s[1..]| ensures !(pat <= s[1..][i..]) {
          assert s[1..][i..] == s[i + 1..];
        }
      }
      RemoveAllAbsent(s[1..], pat);
    }
  }

  /** `s.rpartition(sep)` without the separator: the text before the last `sep`
      and the text after it; `([], s)` when `sep` does not occur. */
  function RPartition(s: string, sep: char): (p: (string, string))
    ensures sep !in p.1
    ensures sep in s ==> s == p.0 + [sep] + p.1
    ensures sep !in s ==> p == ([], s)
  {
    if s == [] then ([], [])
    else if s[|s| - 1] == sep then (s[..|s| - 1], [])
    else
      var p := RPartition(s[..|s| - 1], sep);
      assert s == s[..|s| - 1] + [s[|s| - 1]];
      (p.0, p.1 + [s[|s| - 1]])
  }

  /** Cutting at the last separator recovers the two halves it was joined from,
      whatever separators the first half holds. */
  lemma {:induction false} RPartitionJoin(head: string, sep: char, tail: string)
    requires sep !in tail
    ensures RPartition(head + [sep] + tail, sep) == (head, tail)
    decreases |tail|
  {
    var s := head + [sep] + tail;
    if tail == [] {
      assert s[..|s| - 1] == head;
    } else {
      var init := tail[..|tail| - 1];
      assert s[..|s| - 1] == head + [sep] + init;
      assert sep !in init by {
        forall i | 0 <= i < |init| ensures init[i] != sep {
          assert init[i] == tail[i];
        }
      }
      RPartitionJoin(head, sep, init);
      assert init + [tail[|tail| - 1]] == tail;
    }
  }
}

=== FILE: report.dfy ===
/** `generate_report` of `report_generator.py`: the plain (unsigned) wipe report
    record and the names of its PDF and JSON files. */
module Report {
  import opened CanonicalJson
  import PyStr

  /** What one call writes: the JSON file's record and text, and the two file
      names it returns (PDF first, as the tuple does). */
  datatype WipeReport = WipeReport(
    record: Dict,
    jsonText: string,
    pdfFile: string,
    jsonFile: string)

  /** The `status` value: `"success"` when the wipe succeeded, else `"failed"`. */
  function StatusText(success: bool): (t: string)
    ensures t == "success" <==> success
    ensures t == "failed" <==> !success
  {
    if success then "success" else "failed"
  }

  /** The file base name `<drive>_<timestamp>`. */
  function BaseName(drive: string, timestamp: string): string {
    drive + "_" + timestamp
  }

  /** The dict `data`: exactly `drive`, `method`, `timestamp` and `status`, the
      first three copied verbatim. */
  function ReportRecord(drive: string, wipeMethod: string, success: bool, timestamp: string)
    : (d: Dict)
    ensures DistinctNames(d)
    ensures ToMap(d).Keys == {"drive", "method", "timestamp", "status"}
    ensures ToMap(d)["drive"] == drive && ToMap(d)["method"] == wipeMethod
    ensures ToMap(d)["timestamp"] == timestamp
    ensures ToMap(d)["status"] == "success" <==> success
    ensures ToMap(d)["status"] == "failed" <==> !success
    ensures Names(d) == ["drive", "method", "timestamp", "status"]
  {
    var d1 := [Field("drive", drive)];
    var d2 := d1 + [Field("method", wipeMethod)];
    var d3 := d2 + [Field("timestamp", timestamp)];
    var d4 := d3 + [Field("status", StatusText(success))];
    assert d4[..3] == d3 && d3[..2] == d2 && d2[..1] == d1 && d1[..0] == [];
    assert ToMap(d1) == map["drive" := drive];
    assert ToMap(d2) == ToMap(d1)["method" := wipeMethod];
    assert ToMap(d3) == ToMap(d2)["timestamp" := timestamp];
    assert ToMap(d4) == ToMap(d3)["status" := StatusText(success)];
    d4
  }

  /** `generate_report(drive, method, success)` with the clock reading `timestamp`
      and `escape` Python's JSON string escaping: the record goes to the JSON
      file, and both file names split at their last dot into the base name and
      their own extension. */
  function GenerateReport(drive: string, wipeMethod: string, success: bool, timestamp: string,
                          escape: string -> string): (r: WipeReport)
    ensures r.record == ReportRecord(drive, wipeMethod, success, timestamp)
    ensures r.jsonText == DumpIndented(r.record, escape, 4)
    ensures PyStr.RPartition(r.pdfFile, '.') == (BaseName(drive, timestamp), "pdf")
    ensures PyStr.RPartition(r.jsonFile, '.') == (BaseName(drive, timestamp), "json")
    ensures r.pdfFile != r.jsonFile
  {
    var base := BaseName(drive, timestamp);
    var pdfFile := base + ".pdf";
    var jsonFile := base + ".json";
    assert pdfFile == base + ['.'] + "pdf" && jsonFile == base + ['.'] + "json";
    PyStr.RPartitionJoin(base, '.', "pdf");
    PyStr.RPartitionJoin(base, '.', "json");
    var record := ReportRecord(drive, wipeMethod, success, timestamp);
    WipeReport(record, DumpIndented(record, escape, 4), pdfFile, jsonFile)
  }
}

=== FILE: signed_report.dfy ===
/** `generate_report_and_sign` of `report_generatpr.py`: the certificate record,
    the three artifact paths, the JSON file text, and the Ed25519 signature over
    the sort-keys serialisation of the record. */
module SignedReport {
  import opened Common
  import opened CanonicalJson
  import opened KeyStore
  import PyStr

  /** The status every certificate carries, whatever the wipe did. */
  const Status: string := "Wipe completed successfully"

  /** The foreign primitives the function calls: JSON string escaping,
      `str.encode()`, PEM (de)serialisation and Ed25519 signing. */
  datatype Primitives = Primitives(
    escape: string -> string,
    encode: string -> seq<byte>,
    keys: KeyCodec,
    sign: (PrivateKey, seq<byte>) -> seq<byte>)

  /** `cert_data`, in the order the dict literal lists its keys. */
  function CertificateRecord(drive: string, wipeMethod: string, finalHash: string,
                             txid: string, timestamp: string): (d: Dict)
    ensures DistinctNames(d)
    ensures ToMap(d).Keys
            == {"drive", "wipe_method", "final_hash", "ledger_txid", "timestamp", "status"}
    ensures ToMap(d)["drive"] == drive && ToMap(d)["wipe_method"] == wipeMethod
    ensures ToMap(d)["final_hash"] == finalHash && ToMap(d)["ledger_txid"] == txid
    ensures ToMap(d)["timestamp"] == timestamp && ToMap(d)["status"] == Status
    ensures Names(d) == ["drive", "wipe_method", "final_hash", "ledger_txid", "timestamp", "status"]
  {
    CertificateRecordMap(drive, wipeMethod, finalHash, txid, timestamp);
    [Field("drive", drive), Field("wipe_method", wipeMethod), Field("final_hash", finalHash),
     Field("ledger_txid", txid), Field("timestamp", timestamp), Field("status", Status)]
  }

  /** The record's mapping, built member by member as the dict literal does. */
  lemma CertificateRecordMap(drive: string, wipeMethod: string, finalHash: string,
                             txid: string, timestamp: string)
    ensures var d := [Field("drive", drive), Field("wipe_method", wipeMethod),
                      Field("final_hash", finalHash), Field("ledger_txid", txid),
                      Field("timestamp", timestamp), Field("status", Status)];
            && DistinctNames(d)
            && ToMap(d) == map["drive" := drive, "wipe_method" := wipeMethod,
                               "final_hash" := finalHash, "ledger_txid" := txid,
                               "timestamp" := timestamp, "status" := Status]
  {
    var d1 := [Field("drive", drive)];
    var d2 := d1 + [Field("wipe_method", wipeMethod)];
    var d3 := d2 + [Field("final_hash", finalHash)];
    var d4 := d3 + [Field("ledger_txid", txid)];
    var d5 := d4 + [Field("timestamp", timestamp)];
    var d6 := d5 + [Field("status", Status)];
    assert d6[..5] == d5 && d5[..4] == d4 && d4[..3] == d3 && d3[..2] == d2 && d2[..1] == d1;
    assert d1[..0] == [];
    assert ToMap(d1) == map["drive" := drive];
    assert ToMap(d2) == ToMap(d1)["wipe_method" := wipeMethod];
    assert ToMap(d3) == ToMap(d2)["final_hash" := finalHash];
    assert ToMap(d4) == ToMap(d3)["ledger_txid" := txid];
    assert ToMap(d5) == ToMap(d4)["timestamp" := timestamp];
    assert ToMap(d6) == ToMap(d5)["status" := Status];
    assert d6 == [Field("drive", drive), Field("wipe_method", wipeMethod),
                  Field("final_hash", finalHash), Field("ledger_txid", txid),
                  Field("timestamp", timestamp), Field("status", Status)];
  }

  /** The JSON, PDF and signature files of one certificate. */
  datatype ArtifactPaths = ArtifactPaths(json: string, pdf: string, sig: string)

  /** The shared file stem `wipes/<drive>_<timestamp>`. */
  function Stem(drive: string, timestamp: string): string {
    "wipes/" + drive + "_" + timestamp
  }

  /** The three paths: each splits at its last dot into the one shared stem and
      its own extension, whatever dots the drive or timestamp hold. */
  function PathsFor(drive: string, timestamp: string): (p: ArtifactPaths)
    ensures PyStr.RPartition(p.json, '.') == (Stem(drive, timestamp), "json")
    ensures PyStr.RPartition(p.pdf, '.') == (Stem(drive, timestamp), "pdf")
    ensures PyStr.RPartition(p.sig, '.') == (Stem(drive, timestamp), "sig")
    ensures p.json != p.pdf && p.pdf != p.sig && p.json != p.sig
  {
    var stem := Stem(drive, timestamp);
    var p := ArtifactPaths(stem + ".json", stem + ".pdf", stem + ".sig");
    assert p.json == stem + ['.'] + "json" && p.pdf == stem + ['.'] + "pdf"
        && p.sig == stem + ['.'] + "sig";
    PyStr.RPartitionJoin(stem, '.', "json");
    PyStr.RPartitionJoin(stem, '.', "pdf");
    PyStr.RPartitionJoin(stem, '.', "sig");
    p
  }

  /** A certificate that was written and signed: the files' contents and the key
      file left behind. */
  datatype Issued = Issued(
    paths: ArtifactPaths,
    record: Dict,
    jsonText: string,
    message: string,
    signature: seq<byte>,
    slot: KeySlot)

  /** The key file could not be decoded: the JSON and PDF files were already
      written, the signature file never is. */
  datatype Unsigned = Unsigned(paths: ArtifactPaths, record: Dict, jsonText: string)

  /** `generate_report_and_sign(drive, wipe_method, final_hash, txid)` with the
      clock reading `timestamp`, the key file `slot`, and `generated` the key a
      fresh Ed25519 generation would give. */
  function GenerateReportAndSign(drive: string, wipeMethod: string, finalHash: string,
                                 txid: string, timestamp: string, slot: KeySlot,
                                 generated: PrivateKey, prims: Primitives)
    : (r: Result<Issued, Unsigned>)
    ensures var record := CertificateRecord(drive, wipeMethod, finalHash, txid, timestamp);
            var loaded := LoadPrivateKey(slot, prims.keys, generated);
            && (r.Err? <==> loaded.Err?)
            && (r.Err? ==> r.error == Unsigned(PathsFor(drive, timestamp), record,
                                               DumpIndented(record, prims.escape, 4)))
            && (r.Ok? ==>
                  && r.value.paths == PathsFor(drive, timestamp)
                  && r.value.record == record
                  && r.value.jsonText == DumpIndented(record, prims.escape, 4)
                  && r.value.message == DumpsSorted(record, prims.escape)
                  && r.value.signature == prims.sign(loaded.value.key, prims.encode(r.value.message))
                  && r.value.slot == loaded.value.slot)
  {
    var record := CertificateRecord(drive, wipeMethod, finalHash, txid, timestamp);
    var paths := PathsFor(drive, timestamp);
    var jsonText := DumpIndented(record, prims.escape, 4);
    match LoadPrivateKey(slot, prims.keys, generated)
    case Err(_) => Err(Unsigned(paths, record, jsonText))
    case Ok(loaded) =>
      var message := DumpsSorted(record, prims.escape);
      Ok(Issued(paths, record, jsonText, message,
                prims.sign(loaded.key, prims.encode(message)), loaded.slot))
  }

  /** The signed text is fixed by the record's contents alone: any dict with the
      same name-to-value mapping, in any insertion order, serialises to it. */
  lemma SignedMessageIgnoresOrder(drive: string, wipeMethod: string, finalHash: string,
                                  txid: string, timestamp: string, slot: KeySlot,
                                  generated: PrivateKey, prims: Primitives, other: Dict)
    requires LoadPrivateKey(slot, prims.keys, generated).Ok?
    requires DistinctNames(other)
    requires ToMap(other) == ToMap(CertificateRecord(drive, wipeMethod, finalHash, txid, timestamp))
    ensures DumpsSorted(other, prims.escape)
            == GenerateReportAndSign(drive, wipeMethod, finalHash, txid, timestamp,
                                     slot, generated, prims).value.message
  {
    DumpsSortedIgnoresOrder(
      other, CertificateRecord(drive, wipeMethod, finalHash, txid, timestamp), prims.escape);
  }
}

=== FILE: verify.dfy ===
/** `verify.py`: checking a transaction id or a certificate against the ledger,
    and the command-line choice between the two. Both checks only read the
    ledger file; they take its state and hand back a verdict. */
module Verify {
  import opened Common
  import opened JsonValue
  import opened Ledger
  import CanonicalJson
  import SignedReport
  import PyStr

  /** `verify_by_txid(txid)`: `(True, message)` exactly when the id is a key of
      the loaded ledger; the stored hash is shown but not compared. */
  function VerifyByTxid(txid: string, store: Store): (r: (bool, string))
    ensures r.0 <==> txid in GetLedger(store)
    ensures r.0 ==> r.1 == "Verified on ledger!\nTXID: " + txid
                           + "\nHash: " + GetLedger(store)[txid].hash
    ensures !r.0 ==> r.1 == "TXID " + txid + " not found in ledger records."
  {
    var ledger := GetLedger(store);
    if txid in ledger then
      (true, "Verified on ledger!\nTXID: " + txid + "\nHash: " + ledger[txid].hash)
    else
      (false, "TXID " + txid + " not found in ledger records.")
  }

  /** The four answers `verify_by_json_data` can give. */
  datatype Verdict =
    | InvalidFormat
    | Verified(drive: Json)
    | Mismatch
    | NotFound

  /** `txid in ledger` raised `TypeError`: the id is a list or an object. */
  datatype Fault = UnhashableTxid

  const TxidKey: string := "ledger_txid"
  const HashKey: string := "final_hash"
  const DriveKey: string := "drive"

  /** Both identifying fields are present and non-empty. */
  predicate WellFormed(cert: Object) {
    Truthy(Get(cert, TxidKey)) && Truthy(Get(cert, HashKey))
  }

  /** The certificate's id is a key of the ledger (only strings can be). */
  predicate OnLedger(cert: Object, ledger: Entries) {
    var t := Get(cert, TxidKey);
    t.JStr? && t.s in ledger
  }

  /** The ledger's hash for the certificate's id is the certificate's hash. */
  predicate HashAgrees(cert: Object, ledger: Entries)
    requires OnLedger(cert, ledger)
  {
    JStr(ledger[Get(cert, TxidKey).s].hash) == Get(cert, HashKey)
  }

  /** `verify_by_json_data(cert_data)`: a four-way decision on the id, the hash
      and the loaded ledger, with `TypeError` for an id that cannot be looked up. */
  function VerifyByJsonData(cert: Object, store: Store): (r: Result<Verdict, Fault>)
    ensures var ledger := GetLedger(store);
            && (r == Ok(InvalidFormat) <==> !WellFormed(cert))
            && (r.Err? <==> WellFormed(cert) && !Hashable(Get(cert, TxidKey)))
            && (r.Ok? && r.value.Verified? <==>
                  WellFormed(cert) && OnLedger(cert, ledger) && HashAgrees(cert, ledger))
            && (r == Ok(Mismatch) <==>
                  WellFormed(cert) && OnLedger(cert, ledger) && !HashAgrees(cert, ledger))
            && (r == Ok(NotFound) <==>
                  WellFormed(cert) && Hashable(Get(cert, TxidKey)) && !OnLedger(cert, ledger))
            && (r.Ok? && r.value.Verified? ==> r.value.drive == Get(cert, DriveKey))
  {
    var txid := Get(cert, TxidKey);
    var finalHash := Get(cert, HashKey);
    if !Truthy(txid) || !Truthy(finalHash) then Ok(InvalidFormat)
    else if !Hashable(txid) then Err(UnhashableTxid)
    else
      var ledger := GetLedger(store);
      if txid.JStr? && txid.s in ledger && JStr(ledger[txid.s].hash) == finalHash then
        Ok(Verified(Get(cert, DriveKey)))
      else if txid.JStr? && txid.s in ledger then Ok(Mismatch)
      else Ok(NotFound)
  }

  /** The `(bool, message)` pair for a verdict; `show` is Python's `str()` of a
      JSON value, used for the drive in the success message. */
  function Answer(v: Verdict, show: Json -> string): (r: (bool, string))
    ensures r.0 <==> v.Verified?
    ensures v.InvalidFormat? ==> r.1 == "Invalid certificate format (missing hash or txid)."
    ensures v.Mismatch? ==> r.1 == "Hash mismatch! The certificate may be fraudulent."
    ensures v.NotFound? ==> r.1 == "TXID not found in ledger."
    ensures v.Verified? ==> r.1 == "Hash matches ledger record for drive " + show(v.drive) + "."
  {
    match v
    case InvalidFormat => (false, "Invalid certificate format (missing hash or txid).")
    case Verified(drive) => (true, "Hash matches ledger record for drive " + show(drive) + ".")
    case Mismatch => (false, "Hash mismatch! The certificate may be fraudulent.")
    case NotFound => (false, "TXID not found in ledger.")
  }

  /** The answer depends on no field but the id and the hash (and, for the
      success message only, the drive). */
  lemma VerdictIgnoresOtherFields(cert: Object, store: Store, key: string, v: Json)
    requires key != TxidKey && key != HashKey && key != DriveKey
    ensures VerifyByJsonData(cert[key := v], store) == VerifyByJsonData(cert, store)
  {
    assert Get(cert[key := v], TxidKey) == Get(cert, TxidKey);
    assert Get(cert[key := v], HashKey) == Get(cert, HashKey);
    assert Get(cert[key := v], DriveKey) == Get(cert, DriveKey);
  }

  /** Whether a certificate is accepted does not depend on its drive either. */
  lemma AcceptanceIgnoresDrive(cert: Object, store: Store, v: Json)
    ensures var r1 := VerifyByJsonData(cert[DriveKey := v], store);
            var r2 := VerifyByJsonData(cert, store);
            (r1.Ok? && r1.value.Verified?) <==> (r2.Ok? && r2.value.Verified?)
  {
    assert Get(cert[DriveKey := v], TxidKey) == Get(cert, TxidKey);
    assert Get(cert[DriveKey := v], HashKey) == Get(cert, HashKey);
  }

  /** A certificate that verifies names an id that `verify_by_txid` and
      `verify_hash` accept as well. */
  lemma VerifiedCertificateTxidVerifies(cert: Object, store: Store)
    requires VerifyByJsonData(cert, store).Ok?
    requires VerifyByJsonData(cert, store).value.Verified?
    ensures Get(cert, TxidKey).JStr?
    ensures VerifyByTxid(Get(cert, TxidKey).s, store).0
    ensures VerifyHash(store, Get(cert, TxidKey).s)
  {
  }

  /** `verify_by_txid` and `verify_hash` agree on every id and every ledger. */
  lemma TxidCheckAgreesWithVerifyHash(txid: string, store: Store)
    ensures VerifyByTxid(txid, store).0 == VerifyHash(store, txid)
  {
  }

  /** The certificate as `json.load` reads back the file `json.dump` wrote:
      every value a string. */
  function AsCertificate(d: CanonicalJson.Dict): (cert: Object)
    ensures cert.Keys == CanonicalJson.ToMap(d).Keys
    ensures forall k :: k in cert ==> cert[k] == JStr(CanonicalJson.ToMap(d)[k])
  {
    var m := CanonicalJson.ToMap(d);
    map k | k in m :: JStr(m[k])
  }

  /** Anchor, then certify, then verify: a certificate issued for the id that
      `anchor_hash(h)` returned verifies against the ledger it wrote, for any
      non-empty hash and any earlier ledger. */
  lemma AnchoredCertificateVerifies(store: Store, drive: string, wipeMethod: string,
                                    h: string, timestamp: string)
    requires h != []
    ensures var anchored := AnchorHash(store, h);
            var record := SignedReport.CertificateRecord(drive, wipeMethod, h,
                                                         anchored.txid, timestamp);
            VerifyByJsonData(AsCertificate(record), anchored.store) == Ok(Verified(JStr(drive)))
  {
  }

  /** The empty hash can be anchored, but a certificate carrying it is rejected
      as malformed before the ledger is consulted. */
  lemma EmptyHashNeverVerifies(store: Store, drive: string, wipeMethod: string,
                               timestamp: string)
    ensures var anchored := AnchorHash(store, "");
            var record := SignedReport.CertificateRecord(drive, wipeMethod, "",
                                                         anchored.txid, timestamp);
            VerifyHash(anchored.store, "")
            && VerifyByJsonData(AsCertificate(record), anchored.store) == Ok(InvalidFormat)
  {
  }

  /** What the command line does with `sys.argv`. */
  datatype Command =
    | Usage
    | CheckCertificateFile(path: string)
    | CheckTxid(txid: string)

  /** The `__main__` dispatch: without an argument, usage and exit status 1; an
      argument ending in `.json` names a certificate file; anything else is an id. */
  function Dispatch(argv: seq<string>): (c: Command)
    ensures c.Usage? <==> |argv| < 2
    ensures c.CheckCertificateFile? <==> |argv| >= 2 && PyStr.EndsWith(argv[1], ".json")
    ensures c.CheckCertificateFile? ==> c.path == argv[1]
    ensures c.CheckTxid? ==> c.txid == argv[1]
  {
    if |argv| < 2 then Usage
    else if PyStr.EndsWith(argv[1], ".json") then CheckCertificateFile(argv[1])
    else CheckTxid(argv[1])
  }
}

=== FILE: wipe_cli.dfy ===
/** The terminal tool `back.py`: its wipe-method table, the `nwipe` command
    `wipe_drive` builds, and the menu loop of `main` driven by the answers
    typed at its prompts and by how the commands it runs come out. */
module WipeCli {
  import opened Common
  import WipeThread

  /** `WIPE_METHODS`: menu key to `nwipe --method` name. */
  const WipeMethods: map<string, string> :=
    map["1" := "zero", "2" := "random", "3" := "dodshort", "4" := "dod", "5" := "gutmann"]

  /** The table's keys are "1" to "5" and its five method names are distinct. */
  lemma WipeMethodsTable()
    ensures WipeMethods.Keys == {"1", "2", "3", "4", "5"}
    ensures WipeMethods.Values == {"zero", "random", "dodshort", "dod", "gutmann"}
    ensures forall k1, k2 :: k1 in WipeMethods && k2 in WipeMethods && k1 != k2 ==>
              WipeMethods[k1] != WipeMethods[k2]
  {
    assert WipeMethods.Values == {"zero", "random", "dodshort", "dod", "gutmann"} by {
      assert WipeMethods["1"] == "zero" && WipeMethods["2"] == "random";
      assert WipeMethods["3"] == "dodshort" && WipeMethods["4"] == "dod";
      assert WipeMethods["5"] == "gutmann";
    }
  }

  /** The key that selects a method name, if any does. */
  function MethodKey(name: string): Option<string> {
    if name == "zero" then Some("1")
    else if name == "random" then Some("2")
    else if name == "dodshort" then Some("3")
    else if name == "dod" then Some("4")
    else if name == "gutmann" then Some("5")
    else None
  }

  /** `MethodKey` inverts the table: a key's method leads back to the key, and a
      name has a key exactly when the table holds it. */
  lemma MethodKeyInvertsTable(key: string, name: string)
    ensures key in WipeMethods ==> MethodKey(WipeMethods[key]) == Some(key)
    ensures MethodKey(name) == Some(key) <==> key in WipeMethods && WipeMethods[key] == name
  {
  }

  /** `wipe_drive(drive, method)`'s command: none for a key outside the table
      (nothing runs), else `nwipe` on `/dev/<drive>` with the table's method. */
  function WipeCommand(drive: string, key: string): (argv: Option<seq<string>>)
    ensures argv.None? <==> key !in WipeMethods
    ensures argv.Some? ==> argv.value == WipeThread.Command(drive, WipeMethods[key])
  {
    if key !in WipeMethods then None
    else Some(WipeThread.Command(drive, WipeMethods[key]))
  }

  /** A command `wipe_drive` runs addresses the typed drive, and its method is
      always one of the five table names, selected by the typed key. */
  lemma WipeCommandMethod(drive: string, key: string)
    requires WipeCommand(drive, key).Some?
    ensures WipeThread.Target(WipeCommand(drive, key).value)
            == Some((drive, WipeMethods[key]))
    ensures WipeCommand(drive, key).value[3] in WipeMethods.Values
    ensures MethodKey(WipeCommand(drive, key).value[3]) == Some(key)
  {
    WipeThread.CommandTargets(drive, WipeMethods[key], []);
    MethodKeyInvertsTable(key, WipeMethods[key]);
  }

  /** The four branches of the menu. */
  datatype MenuAction = ListDrives | WipeDrive | Exit | InvalidOption

  /** The branch `main` takes for the typed choice. */
  function MenuChoice(choice: string): (a: MenuAction)
    ensures a == ListDrives <==> choice == "1"
    ensures a == WipeDrive <==> choice == "2"
    ensures a == Exit <==> choice == "3"
    ensures a == InvalidOption <==> choice !in {"1", "2", "3"}
  {
    if choice == "1" then ListDrives
    else if choice == "2" then WipeDrive
    else if choice == "3" then Exit
    else InvalidOption
  }

  /** How the `subprocess.run` of `wipe_drive` came out: `nwipe` exited with
      status 0, exited otherwise (`CalledProcessError`, caught and reported),
      or could not be started at all (`FileNotFoundError`, `PermissionError`
      and the like, which `wipe_drive` does not catch). */
  datatype Launch = Succeeded | FailedExit | NotStarted(error: string)

  /** What the commands run from the menu do: `lsblk`'s output or the text of
      the exception `check_output` raised, and the outcome of each `nwipe`
      command line. */
  datatype Env = Env(lsblk: Result<string, string>, nwipe: seq<string> -> Launch)

  /** What one pass through the menu does, as seen from outside: the drive
      table is shown, `nwipe` is run with a command line, the method key is
      rejected, or the choice is rejected. */
  datatype Event =
    | ShowedDrives(table: string)
    | RanWipe(argv: seq<string>, outcome: Launch)
    | InvalidMethod
    | RejectedChoice

  /** How the loop stopped: `sys.exit(0)` on choice 3, `input()` found no more
      answers (it raises `EOFError`), or an exception nothing catches ended
      `main()`. */
  datatype Stop = Exited | InputExhausted | Crashed(error: string)

  datatype Session = Session(events: seq<Event>, stop: Stop)

  /** `main()` fed the answers `inputs` in order (a choice per pass, and after
      choice 2 a drive name and a method key as well), with the commands it
      runs behaving as `env` says. */
  function RunMenu(env: Env, inputs: seq<string>): (s: Session)
    decreases |inputs|
  {
    if inputs == [] then Session([], InputExhausted)
    else
      match MenuChoice(inputs[0])
      case Exit => Session([], Exited)
      case ListDrives =>
        (match env.lsblk
         case Err(e) => Session([], Crashed(e))
         case Ok(table) => Prepend(ShowedDrives(table), RunMenu(env, inputs[1..])))
      case InvalidOption => Prepend(RejectedChoice, RunMenu(env, inputs[1..]))
      case WipeDrive =>
        if |inputs| < 3 then Session([], InputExhausted)
        else
          match WipeCommand(inputs[1], inputs[2])
          case None => Prepend(InvalidMethod, RunMenu(env, inputs[3..]))
          case Some(argv) =>
            var outcome := env.nwipe(argv);
            if outcome.NotStarted? then Session([RanWipe(argv, outcome)], Crashed(outcome.error))
            else Prepend(RanWipe(argv, outcome), RunMenu(env, inputs[3..]))
  }

  function Prepend(e: Event, s: Session): Session {
    Session([e] + s.events, s.stop)
  }

  /** Every answer is consumed by at most one event; the session ends by exit
      only if some answer was "3"; and every `nwipe` run uses a table method. */
  lemma {:induction false} RunMenuShape(env: Env, inputs: seq<string>)
    ensures |RunMenu(env, inputs).events| <= |inputs|
    ensures RunMenu(env, inputs).stop == Exited ==> "3" in inputs
    ensures forall i :: 0 <= i < |RunMenu(env, inputs).events| && RunMenu(env, inputs).events[i].RanWipe?
              ==> |RunMenu(env, inputs).events[i].argv| == 5
                  && RunMenu(env, inputs).events[i].argv[3] in WipeMethods.Values
    decreases |inputs|
  {
    if inputs != [] && inputs[0] != "3" && !(inputs[0] == "2" && |inputs| < 3)
       && !(inputs[0] == "1" && env.lsblk.Err?)
    {
      var rest := if inputs[0] == "2" then inputs[3..] else inputs[1..];
      RunMenuShape(env, rest);
      assert forall x :: x in rest ==> x in inputs;
      if inputs[0] == "2" {
        var argv := WipeCommand(inputs[1], inputs[2]);
        if argv.Some? {
          WipeCommandMethod(inputs[1], inputs[2]);
        }
      }
    }
  }

  /** The only uncaught errors: a session that crashes either hit a failing
      `lsblk` on some choice "1", or its last event is an `nwipe` command line
      that could not be started, with that error. */
  lemma {:induction false} RunMenuCrashes(env: Env, inputs: seq<string>)
    ensures var s := RunMenu(env, inputs);
            s.stop.Crashed? ==>
              || (env.lsblk == Err(s.stop.error) && "1" in inputs)
              || (&& s.events != [] && s.events[|s.events| - 1].RanWipe?
                  && s.events[|s.events| - 1].outcome == NotStarted(s.stop.error))
    decreases |inputs|
  {
    if inputs != [] && inputs[0] != "3" && !(inputs[0] == "2" && |inputs| < 3)
       && !(inputs[0] == "1" && env.lsblk.Err?)
    {
      var rest := if inputs[0] == "2" then inputs[3..] else inputs[1..];
      RunMenuCrashes(env, rest);
      assert forall x :: x in rest ==> x in inputs;
    }
  }

  /** Answers that run out after choice 2, before both the drive and the
      method key were typed, end the session with no event: the `input()`
      that found nothing raised before `wipe_drive` could run. */
  lemma MenuWipeCutOff(env: Env, rest: seq<string>)
    requires |rest| < 2
    ensures RunMenu(env, ["2"] + rest) == Session([], InputExhausted)
  {
  }

  /** Choice "2" takes the next two answers as drive and method key. A key
      outside the table or an `nwipe` that starts ends the pass, and the loop
      carries on with the answers after them; an `nwipe` that cannot start
      ends the session with its error. Choice "3" ends the session, whatever
      answers remain. */
  lemma MenuWipeAndExit(env: Env, drive: string, key: string, rest: seq<string>)
    ensures key !in WipeMethods ==>
              RunMenu(env, ["2", drive, key] + rest) == Prepend(InvalidMethod, RunMenu(env, rest))
    ensures key in WipeMethods ==>
              var argv := WipeThread.Command(drive, WipeMethods[key]);
              RunMenu(env, ["2", drive, key] + rest)
              == if env.nwipe(argv).NotStarted?
                 then Session([RanWipe(argv, env.nwipe(argv))], Crashed(env.nwipe(argv).error))
                 else Prepend(RanWipe(argv, env.nwipe(argv)), RunMenu(env, rest))
    ensures RunMenu(env, ["3"] + rest) == Session([], Exited)
  {
    var all := ["2", drive, key] + rest;
    assert all[0] == "2" && all[1] == drive && all[2] == key && all[3..] == rest;
    assert (["3"] + rest)[0] == "3";
  }

  /** Choices other than "2" and "3" each take one answer and, with `lsblk`
      working, neither ends the loop: a run of them shows the table for each
      "1", rejects every other one, and then the remaining answers drive the
      loop as if typed alone. */
  lemma {:induction false} RunMenuSimpleChoices(env: Env, choices: seq<string>, rest: seq<string>)
    requires forall i :: 0 <= i < |choices| ==> choices[i] != "2" && choices[i] != "3"
    ensures env.lsblk.Ok? ==>
              && RunMenu(env, choices + rest).events
                 == seq(|choices|, i requires 0 <= i < |choices| =>
                          if choices[i] == "1" then ShowedDrives(env.lsblk.value) else RejectedChoice)
                    + RunMenu(env, rest).events
              && RunMenu(env, choices + rest).stop == RunMenu(env, rest).stop
    decreases |choices|
  {
    var all := choices + rest;
    if choices == [] {
      assert all == rest;
    } else if env.lsblk.Ok? {
      assert all[0] == choices[0] && all[1..] == choices[1..] + rest;
      var tail := choices[1..];
      RunMenuSimpleChoices(env, tail, rest);
      var e := if choices[0] == "1" then ShowedDrives(env.lsblk.value) else RejectedChoice;
      assert RunMenu(env, all) == Prepend(e, RunMenu(env, all[1..]));
      assert seq(|choices|, i requires 0 <= i < |choices| =>
                   if choices[i] == "1" then ShowedDrives(env.lsblk.value) else RejectedChoice)
             == [e] + seq(|tail|, i requires 0 <= i < |tail| =>
                            if tail[i] == "1" then ShowedDrives(env.lsblk.value) else RejectedChoice);
    }
  }

  /** With `lsblk` failing, invalid choices are rejected one by one and the
      first "1" ends the session with the error `check_output` raised. */
  lemma {:induction false} ListingFailureEndsSession(env: Env, rejected: seq<string>, rest: seq<string>)
    requires env.lsblk.Err?
    requires forall i :: 0 <= i < |rejected| ==> rejected[i] !in {"1", "2", "3"}
    ensures RunMenu(env, rejected + ["1"] + rest)
            == Session(seq(|rejected|, _ => RejectedChoice), Crashed(env.lsblk.error))
    decreases |rejected|
  {
    var all := rejected + ["1"] + rest;
    if rejected == [] {
      assert all[0] == "1";
    } else {
      var tail := rejected[1..];
      assert all[0] == rejected[0] && all[1..] == tail + ["1"] + rest;
      ListingFailureEndsSession(env, tail, rest);
      assert RunMenu(env, all) == Prepend(RejectedChoice, RunMenu(env, all[1..]));
      assert seq(|rejected|, _ => RejectedChoice) == [RejectedChoice] + seq(|tail|, _ => RejectedChoice);
    }
  }
}

=== FILE: wipe_thread.dfy ===
/** `WipeThread.run` of `wipe_manager.py`: the `nwipe` command line it launches
    and the signals it emits. The child process enters as the lines its merged
    output produced and how the run ended; Qt's signal delivery is left out and
    the emitted signals are returned as a list, in emission order. */
module WipeThread {
  import opened Common
  import opened PyStr

  /** `["sudo", "nwipe", "--method", method, "/dev/<drive>"]`: the method name is
      passed through as given, with no table lookup. */
  function Command(drive: string, wipeMethod: string): (argv: seq<string>)
    ensures |argv| == 5 && argv[3] == wipeMethod
  {
    ["sudo", "nwipe", "--method", wipeMethod, "/dev/" + drive]
  }

  /** The drive and method an `nwipe` command line of that shape addresses. */
  function Target(argv: seq<string>): Option<(string, string)> {
    if && |argv| == 5
       && argv[0] == "sudo" && argv[1] == "nwipe" && argv[2] == "--method"
       && |argv[4]| >= 5 && argv[4][..5] == "/dev/"
    then Some((argv[4][5..], argv[3]))
    else None
  }

  /** The command names exactly the drive and method it was built from, and
      every command line of that shape is one `Command` builds. */
  lemma CommandTargets(drive: string, wipeMethod: string, argv: seq<string>)
    ensures Target(Command(drive, wipeMethod)) == Some((drive, wipeMethod))
    ensures Target(argv) == Some((drive, wipeMethod)) ==> argv == Command(drive, wipeMethod)
  {
    var c := Command(drive, wipeMethod);
    assert c[4][..5] == "/dev/" && c[4][5..] == drive;
    if Target(argv) == Some((drive, wipeMethod)) {
      assert argv[4] == argv[4][..5] + argv[4][5..];
    }
  }

  /** Different drives or methods give different command lines. */
  lemma CommandInjective(d1: string, m1: string, d2: string, m2: string)
    requires Command(d1, m1) == Command(d2, m2)
    ensures d1 == d2 && m1 == m2
  {
    CommandTargets(d1, m1, []);
    CommandTargets(d2, m2, []);
  }

  /** `progress(str)` with a log line, or `finished(bool)` with the verdict. */
  datatype Signal = Progress(text: string) | Finished(success: bool)

  /** How the run ended: the child exited with a return code, or an exception
      (launch failure, a read error, a failed wait) was raised with message
      `error` after the lines given had been read. */
  datatype Ending = Exited(code: int) | Raised(error: string)

  /** `run()`: one stripped progress line per output line, in stream order,
      then, if an exception was raised, one `Error: ...` line; last of all
      exactly one `finished`, true only for return code 0. */
  method Run(drive: string, wipeMethod: string, lines: seq<string>, ending: Ending)
    returns (argv: seq<string>, signals: seq<Signal>)
    ensures argv == Command(drive, wipeMethod)
    ensures |signals| == |lines| + (if ending.Raised? then 2 else 1)
    ensures forall i :: 0 <= i < |lines| ==> signals[i] == Progress(Strip(lines[i]))
    ensures ending.Raised? ==> signals[|lines|] == Progress("Error: " + ending.error)
    ensures signals[|signals| - 1] == Finished(ending == Exited(0))
    ensures forall i :: 0 <= i < |signals| - 1 ==> signals[i].Progress?
  {
    argv := Command(drive, wipeMethod);
    signals := [];
    var i := 0;
    while i < |lines|
      invariant 0 <= i <= |lines|
      invariant |signals| == i
      invariant forall k :: 0 <= k < i ==> signals[k] == Progress(Strip(lines[k]))
    {
      signals := signals + [Progress(Strip(lines[i]))];
      i := i + 1;
    }
    match ending
    case Exited(code) =>
      signals := signals + [Finished(code == 0)];
    case Raised(error) =>
      signals := signals + [Progress("Error: " + error), Finished(false)];
  }

  /** The texts of a trace's progress signals, in order. */
  function ProgressTexts(signals: seq<Signal>): seq<string> {
    if signals == [] then []
    else
      var rest := ProgressTexts(signals[1..]);
      if signals[0].Progress? then [signals[0].text] + rest else rest
  }

  /** Number of `finished` signals in a trace. */
  function FinishedCount(signals: seq<Signal>): nat {
    if signals == [] then 0
    else (if signals[0].Finished? then 1 else 0) + FinishedCount(signals[1..])
  }

  lemma {:induction false} ProgressPrefix(p: seq<Signal>, last: Signal)
    requires forall i :: 0 <= i < |p| ==> p[i].Progress?
    ensures |ProgressTexts(p + [last])| == |p| + (if last.Progress? then 1 else 0)
    ensures forall i :: 0 <= i < |p| ==> ProgressTexts(p + [last])[i] == p[i].text
    ensures last.Progress? ==> ProgressTexts(p + [last])[|p|] == last.text
    ensures FinishedCount(p + [last]) == (if last.Finished? then 1 else 0)
    decreases |p|
  {
    if p != [] {
      assert (p + [last])[1..] == p[1..] + [last];
      ProgressPrefix(p[1..], last);
    } else {
      assert [last][1..] == [];
    }
  }

  /** The trace read as a log: the stripped output lines in order, then the
      error line if there is one; and it holds exactly one `finished` signal. */
  lemma RunTrace(lines: seq<string>, ending: Ending, signals: seq<Signal>)
    requires |signals| == |lines| + (if ending.Raised? then 2 else 1)
    requires forall i :: 0 <= i < |lines| ==> signals[i] == Progress(Strip(lines[i]))
    requires ending.Raised? ==> signals[|lines|] == Progress("Error: " + ending.error)
    requires signals[|signals| - 1] == Finished(ending == Exited(0))
    requires forall i :: 0 <= i < |signals| - 1 ==> signals[i].Progress?
    ensures |ProgressTexts(signals)| == |lines| + (if ending.Raised? then 1 else 0)
    ensures forall i :: 0 <= i < |lines| ==> ProgressTexts(signals)[i] == Strip(lines[i])
    ensures ending.Raised? ==> ProgressTexts(signals)[|lines|] == "Error: " + ending.error
    ensures FinishedCount(signals) == 1
  {
    var p := signals[..|signals| - 1];
    assert signals == p + [signals[|signals| - 1]];
    ProgressPrefix(p, signals[|signals| - 1]);
  }
}
